=== FILE: README.md ===
# m3u8 downloader — a Dafny model

`m3u8` downloads an HLS video. It fetches an `.m3u8` playlist, or reads a
cached copy of it, and turns each segment line into a `Segment`. A segment
is the line's URL, joined onto a forced prefix, plus a numbered file name
`segment_%04d<ext>`. The tool then downloads the segments concurrently into
a directory, counts the successes, and optionally writes an ffmpeg file
list and hands it to the combiner. In *fix* mode it downloads only the
segments whose files are missing from an existing directory.

This project models that core as pure functions. It proves what they
promise:

- the parser emits exactly a skip/limit window of the content lines, in
  order, with pairwise distinct file names;
- the playlist download prefers the cache, insists on status 200 and
  propagates errors;
- each segment download is classified by the first step that failed;
- the batch puts segment `i`'s outcome in slot `i` whatever order the
  workers finish in;
- the command's limit, fix filter, success count, combine decision, result
  order and file list behave as described.

Modules:

| module | models |
|---|---|
| `Wrappers` | `Option` and `Result` |
| `Text` | `strings.TrimSpace` with `unicode.IsSpace`, `strings.Split` on `"\n"`, Go string `<` |
| `Decimal` | `%04d` (`Pad4`), decimal values, and the first `\d+` run of a string |
| `Paths` | `filepath.Ext`, `filepath.Base`, `filepath.Join`, and the `TrimSuffix(name, Ext(name))` stem |
| `Parser` | `parseM3U8` in `pkg/m3u8/parser.go` |
| `Effects` | what a request or a file write did, as data |
| `Workers` | the goroutine-per-item pattern with a `WaitGroup` |
| `Downloader` | `pkg/m3u8/downloader.go` |
| `Legacy` | the older `downloader.go` in the repository root |
| `Cli` | the list transforms inside `runE` and `createFileList` in `cmd/m3u8/main.go` |
| `Command` | `runE` as one function of its flags and of the outcomes of its I/O |

Modelling choices:

- **I/O as parameters.** HTTP requests, file reads and writes, the cache
  file and the combiner are not performed. Each call's outcome is a
  parameter: an `Exchange` (request rejected, transport failed, or a
  status and a body), a `Store` (create failed, copy failed, stored), an
  `Option` for a read, or a `bool` for a write.
- **`net/url` is uninterpreted.** `UrlCodec.parses` says whether
  `url.Parse` accepts the prefix. `UrlCodec.joinPath` is the string that
  `JoinPath(line).String()` produces.
- **Concurrency as a completion order.** The batch is modelled as
  sequential. A `schedule` lists the workers in the order they finish;
  every worker finishes, because `wg.Wait()` waits for all of them.
- **Go panics and deadlocks become preconditions**, covering the inputs
  that reach them, apart from an allocation too large to make (see
  "Left out").
  - Non-empty text with a negative limit reaches
    `make([]Segment, 0, limit)`, which panics. Empty text is rejected
    before that. So the parser requires `data == [] || limit >= 0`.
  - `newSemaphore` with a negative size panics. With size 0 the first
    worker blocks forever, but an empty batch starts no worker. So the
    batch requires `concurrency >= 1 || (concurrency == 0 && segments == [])`.
  - `Command.Completes` says the same of a whole run. A run that stops at
    set-up, at the playlist, or at fix mode's "all segments are already
    downloaded" never reaches the batch, so any `--concurrent` will do.
- **The package fetch and the parser's arguments.** `fetchM3U8` calls
  `parseM3U8(string(data), forceURLPrefix, forceExt)` with three
  arguments and takes one result (`pkg/m3u8/downloader.go:111`), while the
  parser takes five and returns an error too. The model reads the call as
  a parse of the whole playlist: skip 0, no limit, with the zero-limit
  guard of Finding 1, and a parse error returned as a playlist error.
  The command applies `--limit` afterwards, and `Cli.LimitAfterParse`
  proves that this equals parsing with that limit.
- **The legacy playlist download.** The root `downloadM3U8` calls a
  parser whose source is not part of this model, so the parse is a
  function parameter there.
- **Two readings of the combine step.** `Command.Finish` and
  `Command.Run` take a `Reading`. `AsWritten` is `runE` as the code stands:
  the gate of `cmd/m3u8/main.go:149` and the string comparison of
  `main.go:156-160`. `Intended` is what the flag help and the comment
  describe: `--combine` only after full success, and numeric order. The
  two differ only as Findings 2 and 3 below describe, and
  `Command.ReadingsPartOnFailure` shows where.

## Model

| member | source | states |
|---|---|---|
| Text.IsSpace | pkg/m3u8/parser.go:31 | `unicode.IsSpace`: the six ASCII spaces, U+0085 and U+00A0, and the Unicode White_Space characters above Latin-1; `Text.TrimSpace` states what trimming by it yields |
| Text.SpaceRunEnd | pkg/m3u8/parser.go:31 | the white space skipped from the front ends at the first non-space character or at the end of the line |
| Text.SpaceRunStart | pkg/m3u8/parser.go:31 | the white space skipped from the back starts just after the last non-space character or at the start of the line |
| Text.TrimSpace | pkg/m3u8/parser.go:31 | the trimmed line is no longer than the line, and it neither starts nor ends with white space |
| Text.TrimSpaceSlice | pkg/m3u8/parser.go:31 | the trimmed line is a contiguous slice of the line, with only white space cut on either side |
| Text.TrimSpaceIdempotent | pkg/m3u8/parser.go:31 | trimming a trimmed line changes nothing |
| Text.SplitLines | pkg/m3u8/parser.go:27 | splitting on "\n" always yields at least one piece, and no piece contains a newline |
| Text.JoinLinesExtendFirst | pkg/m3u8/parser.go:27 | a character put in front of the first piece ends up in front of the joined text |
| Text.JoinSplitLines | pkg/m3u8/parser.go:27 | rejoining the pieces with "\n" gives back the playlist text |
| Text.SplitJoinLines | pkg/m3u8/parser.go:27 | splitting the "\n"-join of newline-free pieces gives back those pieces |
| Text.SplitLinesPrefix | pkg/m3u8/parser.go:27 | a newline-free piece in front of a text joins the first line of that text |
| Decimal.Digits | pkg/m3u8/parser.go:56 | the decimal rendering of a number is a non-empty run of digits |
| Decimal.Value | cmd/m3u8/main.go:154-158 | the value of a k-digit string is below 10^k |
| Decimal.ValueOfDigits | pkg/m3u8/parser.go:56 | reading back the decimal rendering of n gives n |
| Decimal.ValueIgnoresLeadingZeros | pkg/m3u8/parser.go:56 | zeros padded in front of a digit string do not change its value |
| Decimal.DigitsLength | pkg/m3u8/parser.go:56 | a number below 10^k has at most k digits |
| Decimal.Pad4 | pkg/m3u8/parser.go:56 | `%04d` of n is the decimal digits of n, padded on the left with '0' to four characters and never cut |
| Decimal.Pad4RoundTrip | pkg/m3u8/parser.go:56 | `%04d` of n is at least four digits and reads back as n |
| Decimal.Pad4Injective | pkg/m3u8/parser.go:56 | distinct ordinals get distinct `%04d` renderings |
| Decimal.Pad4Width | pkg/m3u8/parser.go:56 | below 10000, `%04d` is exactly four characters wide |
| Decimal.LeadingDigits | cmd/m3u8/main.go:154 | the longest all-digit prefix of a string, and the character after it is not a digit |
| Decimal.FirstDigitAt | cmd/m3u8/main.go:157 | the position of the first digit: every character before it is not a digit, and it holds a digit unless it is the end |
| Decimal.FirstDigitRun | cmd/m3u8/main.go:154-158 | the match of `\d+` is all digits, starts at the first digit of the string, and ends at a non-digit or at the end, so it is the leftmost maximal run and empty only when there is no digit |
| Decimal.FirstDigitRunEmpty | cmd/m3u8/main.go:154-158 | the digit-run search finds nothing exactly when the string has no digit |
| Decimal.FirstDigitRunSkips | cmd/m3u8/main.go:157 | a digit-free prefix does not change the first digit run |
| Decimal.LeadingDigitsOfRun | cmd/m3u8/main.go:157 | a digit run followed by a non-digit is read as exactly that run |
| Decimal.LexLessIsNumericOnEqualLength | cmd/m3u8/main.go:159 | on digit strings of equal length, string `<` is numeric `<`, both ways |
| Text.LexLess | cmd/m3u8/main.go:159 | Go's `<` on strings, compared code point by code point with a proper prefix first; the five order lemmas below show it is a strict total order |
| Text.LexLessIrreflexive | cmd/m3u8/main.go:159 | no string is less than itself |
| Text.LexLessTransitive | cmd/m3u8/main.go:159 | string `<` is transitive |
| Text.LexLessTotal | cmd/m3u8/main.go:159 | of two different strings, one is less than the other |
| Text.NotLexLessTransitive | cmd/m3u8/main.go:159 | "not less than" on strings is transitive |
| Text.LexLessAsymmetric | cmd/m3u8/main.go:159 | two strings are never each less than the other |
| Paths.Ext | pkg/m3u8/parser.go:51 | `filepath.Ext` is a suffix of the path that is empty or a '.' followed by characters that are neither '.' nor '/' |
| Paths.ExtEmpty | pkg/m3u8/parser.go:51 | the extension is empty exactly when every '.' of the path lies before its last '/' |
| Paths.ExtGrows | pkg/m3u8/parser.go:51 | an ordinary character after a path with an extension extends that extension |
| Paths.ExtOfAppended | pkg/m3u8/parser.go:51 | appending an extension to a dot-free name makes it that name's extension |
| Paths.TrimSuffix | cmd/m3u8/main.go:102 | `strings.TrimSuffix` removes the suffix when present and otherwise returns the string unchanged |
| Paths.Stem | cmd/m3u8/main.go:102 | a name is its stem followed by its extension |
| Paths.StemOfAppended | cmd/m3u8/main.go:102-109 | the stem of a dot-free name plus an extension is that name |
| Paths.Join | pkg/m3u8/downloader.go:149 | two non-empty elements are joined with one '/'; an empty directory gives the name and an empty name gives the directory |
| Paths.TrimTrailingSlashes | cmd/m3u8/main.go:157 | the result is the path with exactly its trailing run of '/' removed: a prefix, not ending in '/', followed in the path only by '/' |
| Paths.LastElement | cmd/m3u8/main.go:157 | the result is the slash-free tail of the path after its last '/' |
| Paths.LastElementAfterSlash | cmd/m3u8/main.go:157 | the last element of `dir/name` is `name` when `name` has no '/' |
| Paths.Base | cmd/m3u8/main.go:157 | `filepath.Base` is "." for the empty path, "/" for a path of slashes, and otherwise the slash-free element that ends just before the trailing slashes |
| Paths.BaseOfJoin | cmd/m3u8/main.go:157 | the base of a stored segment's path is its file name |
| Parser.IsContent | pkg/m3u8/parser.go:31-34 | a trimmed line names a segment when it is neither blank nor starts with `#`; `Parser.ContentOf` states what the filter keeps |
| Parser.SegmentFilename | pkg/m3u8/parser.go:56 | `segment_` followed by the `%04d` ordinal and the extension; `Parser.SegmentFilenameInjective`, `Cli.SegmentStem` and `Cli.NameDigitRun` state what the name determines |
| Parser.SegmentExt | pkg/m3u8/parser.go:51-54 | a forced extension is used as given; without one, the segment's extension is the line's `filepath.Ext`, which has the form of an extension |
| Parser.MakeSegment | pkg/m3u8/parser.go:45-60 | the segment emitted for a content line: the joined URL and the numbered file name; `Parser.ParseSelectsWindow` states that segment j is this term for content line lo+j |
| Parser.Scan | pkg/m3u8/parser.go:30-62 | the line loop fails only by rejecting the URL prefix |
| Parser.Parse | pkg/m3u8/parser.go:20-69 | empty text is the "m3u8 data is empty" error and nothing else is, and a success holds at least one segment; only non-empty text with a negative limit is excluded, as Go panics there |
| Parser.ContentOf | pkg/m3u8/parser.go:30-34 | the content lines are no more than the lines, and each is non-blank and not a `#` line |
| Parser.ContentOfConcat | pkg/m3u8/parser.go:30-34 | the content lines of two stretches of text are those of each, in order |
| Parser.ContentOrdinal | pkg/m3u8/parser.go:30-39 | a content line's ordinal is the number of content lines above it |
| Parser.ScanIsWindow | pkg/m3u8/parser.go:30-62 | the loop over raw lines equals the closed-form window over the content lines |
| Parser.ShiftedWindow | pkg/m3u8/parser.go:36-39 | a skipped content line only advances the ordinal |
| Parser.ConsWindow | pkg/m3u8/parser.go:41-61 | an in-window content line is emitted in front of the rest |
| Parser.EmittedCons | pkg/m3u8/parser.go:56-61 | emitting from ordinal n is that ordinal's segment followed by the rest from n+1 |
| Parser.EmittedPrefix | pkg/m3u8/parser.go:41-61 | a narrower window from ordinal 0 emits a prefix of a wider one |
| Parser.ParseWithSelectsWindow | pkg/m3u8/parser.go:20-69 | for any window, the parse is the window's segments or the matching error |
| Parser.ParseSelectsWindow | pkg/m3u8/parser.go:20-69 | the parser emits exactly the content lines with ordinals in [skip, skip+limit), in order, the k-th named after ordinal max(skip,0)+k; otherwise it returns the empty-data, no-segments or bad-prefix error |
| Parser.ParseAtMostLimit | pkg/m3u8/parser.go:36-43 | a successful parse holds between 1 and `limit` segments |
| Parser.ParseLimitZeroFails | pkg/m3u8/parser.go:41-43 | with limit 0, every non-empty playlist fails with "no segments found" |
| Parser.ParseNeedsContent | pkg/m3u8/parser.go:64-66 | a playlist without content lines fails with "no segments found" |
| Parser.SegmentFilenameInjective | pkg/m3u8/parser.go:56 | equal segment file names mean equal ordinals, whether the extension is forced or comes from each line |
| Parser.ParseFilenamesUnique | pkg/m3u8/parser.go:56-61 | the file names of one parse are pairwise distinct |
| Parser.ParseZeroLimitIsAll | pkg/m3u8/parser.go:41-43 | the guarded parser keeps the empty-data and non-empty-success guarantees |
| Parser.ParseZeroLimitIsAllSelects | pkg/m3u8/parser.go:36-43 | with the guard, limit 0 selects every content line from `skip` on, and a positive limit behaves exactly as the code as written |
| Downloader.FetchM3U8 | pkg/m3u8/downloader.go:90-112 | a request that cannot be built, a failed transport, a non-200 status and an unreadable body each give their own error; a readable 200 body is parsed whole, giving its segments or the parse error |
| Downloader.DownloadM3U8 | pkg/m3u8/downloader.go:41-64 | a usable cache wins without fetching or saving; otherwise the fetch decides, errors are returned unsaved, and fresh segments are saved when a cache file is named, with a failed save only logged |
| Downloader.SegmentPath | pkg/m3u8/downloader.go:149 | a segment is stored under its file name joined to the segments directory; `Paths.BaseOfJoin` and `Cli.SegmentDigitRun` recover the name and its ordinal from it |
| Downloader.DownloadSegment | pkg/m3u8/downloader.go:147-178 | the path is always the joined path; success happens exactly on a 200 whose body was stored, exactly when there is no error; each failure step gives its own error |
| Downloader.DownloadBatch | pkg/m3u8/downloader.go:121-145 | whatever the completion order, slot i holds segment i's outcome and path; a zero concurrency is allowed for an empty batch |
| Downloader.FailureIsIsolated | pkg/m3u8/downloader.go:129-140 | changing what one worker meets changes no other slot |
| Workers.RunAll | pkg/m3u8/downloader.go:123-144 | each worker writes only its own slot, so after all finish, slot i holds worker i's result |
| Legacy.DownloadM3U8 | downloader.go:13-48 | a decodable cache wins; otherwise any readable body is parsed whatever the status, transport and read failures are errors, and fresh segments are written to a named cache file |
| Legacy.DownloadSegment | downloader.go:50-82 | the path is always the joined path, and success happens exactly on a 200 whose body was stored |
| Legacy.SegmentOutcomeAgrees | downloader.go:50-82 | the old segment result is the new one without its error |
| Legacy.DownloadBatch | downloader.go:89-115 | whatever the completion order, slot i holds segment i's outcome |
| Legacy.PlaylistVersionsAgreeOn200 | downloader.go:27-38 | on a readable 200 playlist both versions return the same segments |
| Legacy.StatusCheckDiffers | downloader.go:27-38 | on a non-200 status the old version still parses the body, while the package version fails with the status |
| Cli.ApplyLimit | cmd/m3u8/main.go:88-94 | the result is the first min(limit, n) segments when limit is positive, and all of them otherwise |
| Cli.LimitAfterParse | cmd/m3u8/main.go:88-94 | limiting the full parse equals parsing with the limit, and both fail alike |
| Cli.FixExtension | cmd/m3u8/main.go:60-73 | a forced extension wins; otherwise the extension is that of the first non-directory entry, or empty when there is none |
| Cli.FirstFileBehindDirectory | cmd/m3u8/main.go:60-73 | behind a leading directory entry, the first file of the listing is the first file of the rest |
| Cli.ExistingStems | cmd/m3u8/main.go:98-105 | the names, extension removed, of the non-directory entries of the listing; `Cli.MissingSegments` and `Cli.FixMatchesByOrdinal` state how the filter uses them |
| Cli.MissingSegments | cmd/m3u8/main.go:96-113 | the kept segments are a subsequence of the list; a segment is kept exactly when its stem matches no existing file, and then every occurrence of it is kept |
| Cli.MissingStep | cmd/m3u8/main.go:107-113 | one step of the filter: a head present on disk is dropped, and a missing one is kept in front of the rest |
| Cli.KeptExactlyMissing | cmd/m3u8/main.go:107-113 | counts that are zero for present stems and unchanged otherwise keep exactly the missing segments |
| Cli.NothingMissing | cmd/m3u8/main.go:107-118 | when every segment's stem is already on disk, the missing list is empty |
| Cli.SubsequenceOfTail | cmd/m3u8/main.go:107-113 | a subsequence of the tail is a subsequence of the list |
| Cli.SubsequenceDropFirst | cmd/m3u8/main.go:107-113 | dropping the first element keeps a subsequence |
| Cli.SubsequenceNoLonger | cmd/m3u8/main.go:107-113 | a subsequence is no longer than the list |
| Cli.SegmentStem | cmd/m3u8/main.go:109 | the stem of a segment file name is `segment_` followed by its padded ordinal, whatever its extension |
| Cli.FixMatchesByOrdinal | cmd/m3u8/main.go:98-113 | a segment is present when any file carries its number, whatever that file's extension |
| Cli.SuccessfulPaths | cmd/m3u8/main.go:189-193 | no more successes than results, and as many exactly when every result succeeded |
| Cli.SuccessfulPathsAppend | cmd/m3u8/main.go:128-134 | the successes of two result lists are those of each, in order |
| Cli.CountSuccesses | cmd/m3u8/main.go:126-141 | the count is the number of successful results, and it equals the number of segments exactly when every one succeeded |
| Cli.FileListEntry | cmd/m3u8/main.go:191 | the `file '<path>'` line for one successful result; `Cli.FileListLines` reads the lines back |
| Cli.FileList | cmd/m3u8/main.go:189-193 | the file list is empty exactly when no result succeeded, and otherwise ends with a newline |
| Cli.FileListIsJoin | cmd/m3u8/main.go:181-196 | the file list is the newline-terminated `file '<path>'` lines of the successful results, in result order |
| Cli.SuccessfulPathsHaveNoNewline | cmd/m3u8/main.go:189-193 | newline-free successful paths stay newline-free in the list of successes |
| Cli.FileListLines | cmd/m3u8/main.go:181-196 | read back line by line, the file list names exactly the successful paths in order, and nothing for a failure |
| Cli.OutputFile | cmd/m3u8/main.go:144-147 | `--force-combine` wins when given, else `--combine`; there is no output file only when neither is given |
| Cli.CombineTargetAsWritten | cmd/m3u8/main.go:143-151 | the combine test as written: with `--force-combine` it combines only on full success, and with plain `--combine` it always combines |
| Cli.CombineTarget | cmd/m3u8/main.go:207-213 | the combine test as the flags describe it: `--force-combine` always combines, and plain `--combine` only on full success |
| Cli.CombineGateSwapped | cmd/m3u8/main.go:149 | with one failure out of two, the written test combines for `--combine` and refuses for `--force-combine`, the reverse of the flag help |
| Cli.CombineGatesAgreeOnFullSuccess | cmd/m3u8/main.go:149 | when every segment succeeded, the two tests agree |
| Cli.SegmentFilenameHasNoSlash | pkg/m3u8/parser.go:56 | a segment file name is a single path element |
| Cli.NameDigitRun | cmd/m3u8/main.go:154-158 | the digit run of a segment file name is its `%04d` ordinal |
| Cli.SegmentDigitRun | cmd/m3u8/main.go:154-158 | the digit run of a stored segment's base name is its `%04d` ordinal |
| Cli.SortKeyOrdersBelow10000 | cmd/m3u8/main.go:153-160 | below ordinal 10000, the written string comparison orders results by segment number, both ways |
| Cli.SortKeyMisordersPast9999 | cmd/m3u8/main.go:153-160 | the written comparison puts segment 10000 before segment 9999 |
| Cli.Pad4Of10000 | pkg/m3u8/parser.go:56 | `%04d` of 10000 is "10000" |
| Cli.Pad4Of9999 | pkg/m3u8/parser.go:56 | `%04d` of 9999 is "9999" |
| Cli.OrdinalKeyOfSegment | cmd/m3u8/main.go:153-158 | the numeric key of a stored segment's path is its ordinal, for every ordinal |
| Cli.InsertBy | cmd/m3u8/main.go:156-160 | inserting into a sorted list keeps it sorted and adds exactly that element |
| Cli.HeadIsLeast | cmd/m3u8/main.go:156-160 | the head of a sorted list has the least key |
| Cli.ConsSorted | cmd/m3u8/main.go:156-160 | a least element in front of a sorted list keeps it sorted |
| Cli.SortBy | cmd/m3u8/main.go:156-160 | the sort returns a permutation of the results in ascending key order |
| Cli.SortKeyAsWritten | cmd/m3u8/main.go:157 | the sort key as written is a digit string: the first maximal digit run of the path's base name |
| Cli.SortByOrdinal | cmd/m3u8/main.go:153 | the order the comment asks for: a permutation of the results, ascending by the number in each file name |
| Cli.InsertByText | cmd/m3u8/main.go:156-160 | inserting into a list sorted by string keys keeps it sorted and adds exactly that element |
| Cli.InsertInFront | cmd/m3u8/main.go:156-160 | an element goes in front of a sorted list whose head's key is not less than its own |
| Cli.InsertBehind | cmd/m3u8/main.go:156-160 | a head whose key is less than the inserted element's stays in front |
| Cli.ConsSortedByText | cmd/m3u8/main.go:156-160 | an element that no later key is less than keeps a sorted list sorted in front |
| Cli.SortByText | cmd/m3u8/main.go:156-160 | `sort.Slice` with a string comparison returns a permutation in which no key is less than an earlier one |
| Cli.SortAsWritten | cmd/m3u8/main.go:153-160 | the order the command combines in: a permutation of the results in which no result's digit run, compared as a string, is less than an earlier one's |
| Cli.AsWrittenOrderIsNumericBelow10000 | cmd/m3u8/main.go:153-160 | when every result is a stored segment numbered below 10000, the order as written is ascending by segment number, as the comment asks |
| Cli.PermutedFrom | cmd/m3u8/main.go:156-160 | every element of a permutation of the results is one of the results |
| Command.Setup | cmd/m3u8/main.go:54-80 | fix mode fails when the directory does not exist, and without a forced extension when it cannot be read; otherwise it works in the fix directory with the forced extension or the first file's (empty when there is none); outside fix mode a failed `MkdirAll` fails and otherwise the segments directory and the forced extension are used |
| Command.Playlist | cmd/m3u8/main.go:82-85 | the segments the run works from are those `Downloader.DownloadM3U8` returns for the flags and the extension set-up chose, and its error ends the run; `Command.Run` states the error exit |
| Command.ToDownload | cmd/m3u8/main.go:88-121 | at most `limit` segments; in fix mode exactly the limited playlist's missing segments, none of whose files exists; otherwise the limited playlist |
| Command.Finish | cmd/m3u8/main.go:123-178 | slot i is segment i's outcome; "all downloaded" exactly on full success; a closed gate writes nothing and ends without error; an open gate writes the file list of the ordered results, or ends with "failed to create filelist"; then combines into the output file and cleans up when asked, or ends with "failed to combine segments"; as written, `--force-combine` combines only after full success |
| Command.Run | cmd/m3u8/main.go:55-178 | a set-up or playlist failure ends the run with that error and downloads nothing; otherwise exactly the limited (in fix mode, missing) segments are downloaded; fix mode with nothing missing stops without error; every other run goes through the batch and the combine step as `Command.Finish` states |
| Command.SegmentFailuresNeverFailTheRun | cmd/m3u8/main.go:123-178 | once set-up and the playlist succeed, failed segments never make the run fail |
| Command.FinishedWithoutError | cmd/m3u8/main.go:162-175 | with the file list and the combiner working, the combine step ends without error |
| Command.ReadingsPartOnFailure | cmd/m3u8/main.go:144-151 | once any segment has failed, the batch and combine step as written combine for plain `--combine` and not for `--force-combine`, and the intended reading does the opposite |
| Command.FixWithNothingMissing | cmd/m3u8/main.go:115-118 | in fix mode, a directory holding every segment ends the run successfully with nothing downloaded, whatever `--concurrent` is |

## Left out

- HTTP transport, request headers (`LoadHeaders`, `LoadHeadersFromFile`, `HeaderMapTransport`), the context, and the client configuration: each request is reduced to its outcome.
- The cache file's JSON encoding: `loadCache` and `saveCache` are reduced to "decoded these segments or failed" and "write succeeded or failed".
- The combiner (`CombineSegments`, ffmpeg) and `os.RemoveAll`: the model records the file list, the output file, and whether the directory would be removed.
- Logging, verbose output and the printed messages: they do not affect any result.
- The semaphore and true parallelism: workers run one after another in an arbitrary completion order. The concurrency bound affects timing only, not results.
- Paths.Join: modelled as `dir + "/" + name` without `filepath.Clean`, and with Unix separators only.
- Text.TrimSpace: works on Unicode code points rather than UTF-8 bytes; invalid UTF-8 is not modelled.
- Cli.SortAsWritten: `sort.Slice` is not stable, so results with equal keys may come out in any order; the model fixes the insertion sort's order, and its contract promises only what `sort.Slice` does. `Cli.SortByOrdinal` does the same.
- The root version's `parseM3U8` is not part of this model; `Legacy.DownloadM3U8` takes the parse as a function.
- Parser.Parse: excludes non-empty text with a negative limit, because Go panics on `make` with a negative capacity. `Parser.ParseZeroLimitIsAll` excludes the same inputs. A limit so large that `limit` segments exceed Go's allocation limit (above about 2^43 on 64-bit platforms) also panics in `make`; the model allows it and parses as if the allocation succeeded.
- Downloader.DownloadBatch: excludes a negative concurrency, which panics, and a zero one with segments to download, which blocks forever.
- Legacy.DownloadBatch: excludes the same inputs as `Downloader.DownloadBatch`. Its `NewSemaphore` is not part of this model and is taken to behave like the package's `newSemaphore`.
- Command.Run: excludes, through `Command.Completes`, only the runs that reach the batch with such a concurrency.
- Downloader.FetchM3U8: the three-argument call at `pkg/m3u8/downloader.go:111` does not match the parser's signature. It is read as a full parse with parse errors propagated.
- Command.Run: a headers file that `LoadHeaders` cannot read ends `runE` with that error before set-up (cmd/m3u8/main.go:44-48); headers are not modelled, so the model starts at set-up.
- Command.Run: the fix-mode directory is read once; `runE` reads it twice, and the two reads are assumed to agree.

## Findings

| source | as written | input that shows it | evidently intended | confidence | as-written member | corrected member |
|---|---|---|---|---|---|---|
| pkg/m3u8/parser.go:41 | `if segmentNum >= skip+limit { break }` with no guard on `limit`, so a limit of 0 stops at the first content line | any non-empty playlist with `limit = 0`, which the command's `--limit` default (main.go:218) treats as "no limit" | a zero limit means "no limit" (`limit > 0 &&` in the test) | not executed | Parser.ParseLimitZeroFails | Parser.ParseZeroLimitIsAllSelects |
| cmd/m3u8/main.go:149 | `forceCombine != "" && successCount != len(segments)` skips combining | 1 of 2 segments succeeded: `--combine out.mp4` combines, and `--force-combine out.mp4` does not | per the flag help (main.go:212-213), `--combine` combines only after full success, and `--force-combine` even after failures | not executed | Cli.CombineGateSwapped | Cli.CombineTarget |
| cmd/m3u8/main.go:154-160 | results are sorted by the digit run compared as a string | segments 9999 and 10000: "10000" < "9999", so 10000 is combined first | sort by the segment number | not executed | Cli.SortKeyMisordersPast9999 | Cli.SortByOrdinal |

=== FILE: cli.dfy ===
/** The list transforms inside the command's `runE`: the segment limit,
    the fix-mode filter, the success count, the combine decision, the
    order results are combined in, and the combiner's file list. */
module Cli {
  import opened Wrappers
  import opened Text
  import opened Decimal
  import opened Paths
  import opened Parser
  import opened Downloader

  // ---------------------------------------------------------------------
  // --limit

  /** Keeps the first `limit` segments when `limit` is positive and
      smaller than the list; otherwise keeps them all. */
  function ApplyLimit(segments: seq<Segment>, limit: int): (r: seq<Segment>)
    ensures |r| == (if 0 < limit < |segments| then limit else |segments|)
    ensures r == segments[..|r|]
  {
    if limit > 0 && limit < |segments| then segments[..limit] else segments
  }

  /** Truncating the full parse to `limit` segments is the same as parsing
      with that limit: the command's limit and the parser's agree. */
  lemma LimitAfterParse(data: string, forceURLPrefix: string, forceExt: string, limit: int, urls: UrlCodec)
    requires limit > 0
    ensures var all := ParseZeroLimitIsAll(data, forceURLPrefix, forceExt, 0, 0, urls);
      var some := ParseZeroLimitIsAll(data, forceURLPrefix, forceExt, 0, limit, urls);
      && (all.Success? <==> some.Success?)
      && (all.Success? ==> ApplyLimit(all.value, limit) == some.value)
      && (all.Failure? ==> all == some)
  {
    var cs := ContentLines(data);
    ParseWithSelectsWindow(data, forceURLPrefix, forceExt, Window(0, 0, true), urls);
    ParseWithSelectsWindow(data, forceURLPrefix, forceExt, Window(0, limit, true), urls);
    if data != [] && cs != [] && urls.parses(forceURLPrefix) {
      EmittedPrefix(cs, |cs|, Min(|cs|, limit), forceURLPrefix, forceExt, urls);
    }
  }

  // ---------------------------------------------------------------------
  // --fix

  /** One entry of `os.ReadDir`. */
  datatype DirEntry = DirEntry(name: string, isDir: bool)

  /** Entry `i` is the first file (not directory) of the listing. */
  predicate FirstFileAt(listing: seq<DirEntry>, i: int) {
    0 <= i < |listing| && !listing[i].isDir && forall k :: 0 <= k < i ==> listing[k].isDir
  }

  /** The extension fix mode uses when none is forced: that of the first
      file (not directory) in listing order, or "" when there is none. */
  function FixExtension(forceExt: string, listing: seq<DirEntry>): (e: string)
    ensures forceExt != [] ==> e == forceExt
    ensures forceExt == [] && (forall k :: 0 <= k < |listing| ==> listing[k].isDir) ==> e == []
    ensures forceExt == [] ==> forall i :: FirstFileAt(listing, i) ==> e == Ext(listing[i].name)
    decreases |listing|
  {
    if forceExt != [] then forceExt
    else if listing == [] then []
    else if !listing[0].isDir then Ext(listing[0].name)
    else
      var e := FixExtension(forceExt, listing[1..]);
      FirstFileBehindDirectory(listing, e);
      e
  }

  /** Behind a leading directory, the first file is the tail's first file. */
  lemma FirstFileBehindDirectory(listing: seq<DirEntry>, e: string)
    requires listing != [] && listing[0].isDir
    requires forall i :: FirstFileAt(listing[1..], i) ==> e == Ext(listing[1..][i].name)
    ensures forall i :: FirstFileAt(listing, i) ==> e == Ext(listing[i].name)
  {
    var tail := listing[1..];
    forall i | FirstFileAt(listing, i)
      ensures e == Ext(listing[i].name)
    {
      assert i >= 1 && tail[i - 1] == listing[i];
      assert forall k :: 0 <= k < i - 1 ==> tail[k] == listing[k + 1];
      assert FirstFileAt(tail, i - 1);
    }
  }

  /** The stems of the files already in the directory. */
  function ExistingStems(listing: seq<DirEntry>): set<string> {
    set k | 0 <= k < |listing| && !listing[k].isDir :: Stem(listing[k].name)
  }

  /** `s` is `t` with some elements left out, the rest in order. */
  predicate IsSubsequence<T(==)>(s: seq<T>, t: seq<T>)
    decreases |t|
  {
    if s == [] then true
    else if t == [] then false
    else if s[0] == t[0] then IsSubsequence(s[1..], t[1..])
    else IsSubsequence(s, t[1..])
  }

  /** The segments whose stem matches no existing file, in order. */
  function MissingSegments(segments: seq<Segment>, listing: seq<DirEntry>): (r: seq<Segment>)
    ensures IsSubsequence(r, segments)
    ensures forall s :: s in r <==> s in segments && Stem(s.filename) !in ExistingStems(listing)
    // every occurrence of a missing segment is kept, repeats included
    ensures forall s :: multiset(r)[s] == if Stem(s.filename) in ExistingStems(listing) then 0 else multiset(segments)[s]
    decreases |segments|
  {
    if segments == [] then []
    else
      var rest := MissingSegments(segments[1..], listing);
      var r := if Stem(segments[0].filename) in ExistingStems(listing) then rest else [segments[0]] + rest;
      MissingStep(segments, ExistingStems(listing), rest, r);
      r
  }

  /** One step of the filter: the head is dropped when present on disk
      and kept in front otherwise. */
  lemma MissingStep(segments: seq<Segment>, present: set<string>, rest: seq<Segment>, r: seq<Segment>)
    requires segments != []
    requires IsSubsequence(rest, segments[1..])
    requires forall s :: multiset(rest)[s] == if Stem(s.filename) in present then 0 else multiset(segments[1..])[s]
    requires r == if Stem(segments[0].filename) in present then rest else [segments[0]] + rest
    ensures IsSubsequence(r, segments)
    ensures forall s :: s in r <==> s in segments && Stem(s.filename) !in present
    ensures forall s :: multiset(r)[s] == if Stem(s.filename) in present then 0 else multiset(segments)[s]
  {
    KeptSubsequence(segments, present, rest, r);
    KeptCounts(segments, present, rest, r);
    KeptExactlyMissing(r, segments, present);
  }

  lemma KeptSubsequence(segments: seq<Segment>, present: set<string>, rest: seq<Segment>, r: seq<Segment>)
    requires segments != []
    requires IsSubsequence(rest, segments[1..])
    requires r == if Stem(segments[0].filename) in present then rest else [segments[0]] + rest
    ensures IsSubsequence(r, segments)
  {
    if r == rest {
      SubsequenceOfTail(rest, segments);
    } else {
      assert r[1..] == rest;
    }
  }

  lemma KeptCounts(segments: seq<Segment>, present: set<string>, rest: seq<Segment>, r: seq<Segment>)
    requires segments != []
    requires forall s :: multiset(rest)[s] == if Stem(s.filename) in present then 0 else multiset(segments[1..])[s]
    requires r == if Stem(segments[0].filename) in present then rest else [segments[0]] + rest
    ensures forall s :: multiset(r)[s] == if Stem(s.filename) in present then 0 else multiset(segments)[s]
  {
    var drop := (s: Segment) => Stem(s.filename) in present;
    CountsByDrop(multiset(rest), multiset(segments[1..]), present, drop);
    MissingCounts(segments, drop, rest, r);
    CountsByStem(multiset(r), multiset(segments), present, drop);
  }

  /** Restating per-segment counts through `drop`, when `drop` is the
      present-stem test. */
  lemma CountsByDrop(m: multiset<Segment>, base: multiset<Segment>, present: set<string>, drop: Segment -> bool)
    requires forall s :: drop(s) == (Stem(s.filename) in present)
    requires forall s :: m[s] == if Stem(s.filename) in present then 0 else base[s]
    ensures forall s :: m[s] == if drop(s) then 0 else base[s]
  {
  }

  lemma CountsByStem(m: multiset<Segment>, base: multiset<Segment>, present: set<string>, drop: Segment -> bool)
    requires forall s :: drop(s) == (Stem(s.filename) in present)
    requires forall s :: m[s] == if drop(s) then 0 else base[s]
    ensures forall s :: m[s] == if Stem(s.filename) in present then 0 else base[s]
  {
  }

  /** The counts after one step of a filter that drops what `drop` holds of. */
  lemma MissingCounts<T>(xs: seq<T>, drop: T -> bool, rest: seq<T>, r: seq<T>)
    requires xs != []
    requires forall s :: multiset(rest)[s] == if drop(s) then 0 else multiset(xs[1..])[s]
    requires r == if drop(xs[0]) then rest else [xs[0]] + rest
    ensures forall s :: multiset(r)[s] == if drop(s) then 0 else multiset(xs)[s]
  {
    assert xs == [xs[0]] + xs[1..];
    assert multiset(xs) == multiset{xs[0]} + multiset(xs[1..]);
    if r != rest {
      assert multiset(r) == multiset{xs[0]} + multiset(rest);
    }
  }

  /** Counts that are zero exactly for the present stems and the original
      count otherwise keep exactly the missing members. */
  lemma KeptExactlyMissing(r: seq<Segment>, segments: seq<Segment>, present: set<string>)
    requires forall s :: multiset(r)[s] == if Stem(s.filename) in present then 0 else multiset(segments)[s]
    ensures forall s :: s in r <==> s in segments && Stem(s.filename) !in present
  {
    forall s
      ensures s in r <==> s in segments && Stem(s.filename) !in present
    {
      assert s in r <==> s in multiset(r);
      assert s in segments <==> s in multiset(segments);
    }
  }

  /** When every segment's stem is already on disk, nothing is missing. */
  lemma {:induction false} NothingMissing(segments: seq<Segment>, listing: seq<DirEntry>)
    requires forall s :: s in segments ==> Stem(s.filename) in ExistingStems(listing)
    ensures MissingSegments(segments, listing) == []
    decreases |segments|
  {
    if segments != [] {
      assert segments[0] in segments;
      assert forall s :: s in segments[1..] ==> s in segments;
      NothingMissing(segments[1..], listing);
    }
  }

  lemma {:induction false} SubsequenceOfTail<T>(s: seq<T>, t: seq<T>)
    requires t != [] && IsSubsequence(s, t[1..])
    ensures IsSubsequence(s, t)
    decreases |t|, 0
  {
    if s != [] && s[0] == t[0] {
      SubsequenceDropFirst(s, t[1..]);
    }
  }

  lemma {:induction false} SubsequenceDropFirst<T>(s: seq<T>, t: seq<T>)
    requires s != [] && IsSubsequence(s, t)
    ensures IsSubsequence(s[1..], t)
    decreases |t|, 1
  {
    if s[0] == t[0] {
      SubsequenceOfTail(s[1..], t);
    } else {
      SubsequenceDropFirst(s, t[1..]);
      SubsequenceOfTail(s[1..], t);
    }
  }

  lemma {:induction false} SubsequenceNoLonger<T>(s: seq<T>, t: seq<T>)
    requires IsSubsequence(s, t)
    ensures |s| <= |t|
    decreases |t|
  {
    if s != [] {
      if s[0] == t[0] {
        SubsequenceNoLonger(s[1..], t[1..]);
      } else {
        SubsequenceNoLonger(s, t[1..]);
      }
    }
  }

  /** A segment counts as present when any file carries its number,
      whatever that file's extension: names differ only past the stem. */
  lemma FixMatchesByOrdinal(segments: seq<Segment>, listing: seq<DirEntry>, i: nat, n: nat, e: string, k: nat, e': string)
    requires i < |segments| && segments[i].filename == SegmentFilename(n, e) && IsExtension(e)
    requires k < |listing| && listing[k] == DirEntry(SegmentFilename(n, e'), false) && IsExtension(e')
    ensures segments[i] !in MissingSegments(segments, listing)
  {
    SegmentStem(n, e);
    SegmentStem(n, e');
    assert Stem(listing[k].name) in ExistingStems(listing);
  }

  /** The stem of a segment file name is "segment_" and its padded ordinal. */
  lemma SegmentStem(n: nat, e: string)
    requires IsExtension(e)
    ensures Stem(SegmentFilename(n, e)) == "segment_" + Pad4(n)
  {
    var stem := "segment_" + Pad4(n);
    assert SegmentFilename(n, e) == stem + e;
    Pad4RoundTrip(n);
    assert '.' !in stem by {
      assert forall c :: c in stem ==> c in "segment_" || IsDigit(c);
    }
    StemOfAppended(stem, e);
  }

  // ---------------------------------------------------------------------
  // Counting and listing the successes

  /** The paths of the successful results, in result order. */
  function SuccessfulPaths(results: seq<BatchResult>): (ps: seq<string>)
    ensures |ps| <= |results|
    ensures |ps| == |results| <==> forall i :: 0 <= i < |results| ==> results[i].success
    decreases |results|
  {
    if results == [] then []
    else if results[0].success then [results[0].path] + SuccessfulPaths(results[1..])
    else SuccessfulPaths(results[1..])
  }

  lemma {:induction false} SuccessfulPathsAppend(a: seq<BatchResult>, b: seq<BatchResult>)
    ensures SuccessfulPaths(a + b) == SuccessfulPaths(a) + SuccessfulPaths(b)
    decreases |a|
  {
    if a != [] {
      assert (a + b)[1..] == a[1..] + b;
      SuccessfulPathsAppend(a[1..], b);
    } else {
      assert a + b == b;
    }
  }

  /** The success-counting loop: the number of successful results, which
      equals the number of results exactly when every one succeeded. */
  method CountSuccesses(results: seq<BatchResult>) returns (count: nat)
    ensures count == |SuccessfulPaths(results)|
    ensures count <= |results|
    ensures count == |results| <==> forall i :: 0 <= i < |results| ==> results[i].success
  {
    count := 0;
    var i := 0;
    while i < |results|
      invariant 0 <= i <= |results|
      invariant count == |SuccessfulPaths(results[..i])|
    {
      assert results[..i + 1] == results[..i] + [results[i]];
      SuccessfulPathsAppend(results[..i], [results[i]]);
      if results[i].success {
        count := count + 1;
      }
      i := i + 1;
    }
    assert results[..i] == results;
  }

  /** One line of the combiner's file list. */
  function FileListEntry(path: string): string {
    "file '" + path + "'"
  }

  /** `createFileList`'s content: a `file '<path>'` line per successful
      result, in result order. */
  function FileList(results: seq<BatchResult>): (r: string)
    ensures r == [] <==> SuccessfulPaths(results) == []
    ensures r != [] ==> r[|r| - 1] == '\n'
    decreases |results|
  {
    if results == [] then []
    else if results[0].success then FileListEntry(results[0].path) + "\n" + FileList(results[1..])
    else FileList(results[1..])
  }

  function FileListEntries(paths: seq<string>): (es: seq<string>)
    ensures |es| == |paths|
    ensures forall k :: 0 <= k < |es| ==> es[k] == FileListEntry(paths[k])
  {
    seq(|paths|, k requires 0 <= k < |paths| => FileListEntry(paths[k]))
  }

  lemma {:induction false} FileListIsJoin(results: seq<BatchResult>)
    ensures FileList(results) == JoinLines(FileListEntries(SuccessfulPaths(results)) + [[]])
    decreases |results|
  {
    if results != [] {
      FileListIsJoin(results[1..]);
      var rest := FileListEntries(SuccessfulPaths(results[1..]));
      if results[0].success {
        var es := FileListEntries(SuccessfulPaths(results));
        assert es == [FileListEntry(results[0].path)] + rest;
        assert (es + [[]])[1..] == rest + [[]];
      }
    }
  }

  /** Read back line by line, the file list names exactly the successful
      paths in result order, one per line, and nothing for a failure. */
  lemma FileListLines(results: seq<BatchResult>)
    requires forall i :: 0 <= i < |results| && results[i].success ==> '\n' !in results[i].path
    ensures SplitLines(FileList(results)) == FileListEntries(SuccessfulPaths(results)) + [[]]
    ensures |SplitLines(FileList(results))| == |SuccessfulPaths(results)| + 1
  {
    FileListIsJoin(results);
    var ps := SuccessfulPaths(results);
    SuccessfulPathsHaveNoNewline(results);
    EntriesHaveNoNewline(ps);
    SplitJoinLines(FileListEntries(ps) + [[]]);
  }

  /** Entries for newline-free paths are newline-free lines. */
  lemma EntriesHaveNoNewline(ps: seq<string>)
    requires forall k :: 0 <= k < |ps| ==> '\n' !in ps[k]
    ensures forall k :: 0 <= k < |FileListEntries(ps) + [[]]| ==> '\n' !in (FileListEntries(ps) + [[]])[k]
  {
    var es := FileListEntries(ps) + [[]];
    forall k | 0 <= k < |es|
      ensures '\n' !in es[k]
    {
      if k < |ps| {
        assert es[k] == "file '" + ps[k] + "'";
      }
    }
  }

  lemma {:induction false} SuccessfulPathsHaveNoNewline(results: seq<BatchResult>)
    requires forall i :: 0 <= i < |results| && results[i].success ==> '\n' !in results[i].path
    ensures forall k :: 0 <= k < |SuccessfulPaths(results)| ==> '\n' !in SuccessfulPaths(results)[k]
    decreases |results|
  {
    if results != [] {
      assert forall i :: 0 <= i < |results[1..]| ==> results[1..][i] == results[i + 1];
      SuccessfulPathsHaveNoNewline(results[1..]);
    }
  }

  // ---------------------------------------------------------------------
  // --combine / --force-combine

  /** The output file, `--force-combine` taking precedence over `--combine`. */
  function OutputFile(forceCombine: string, combine: string): (r: string)
    ensures forceCombine != [] ==> r == forceCombine
    ensures forceCombine == [] ==> r == combine
    ensures r == [] <==> forceCombine == [] && combine == []
  {
    if forceCombine != [] then forceCombine else combine
  }

  /** The combine test as written: skip when there is no output file, or
      when `--force-combine` is given and some segment failed. */
  function CombineTargetAsWritten(forceCombine: string, combine: string, successCount: nat, total: nat): (r: Option<string>)
    ensures r.Some? ==> r.value == OutputFile(forceCombine, combine) && r.value != []
    ensures forceCombine != [] ==> (r.Some? <==> successCount == total)
    ensures forceCombine == [] ==> (r.Some? <==> combine != [])
  {
    var out := OutputFile(forceCombine, combine);
    if out == [] || (forceCombine != [] && successCount != total) then None else Some(out)
  }

  /** The test as the flags describe it: `--combine` only when every
      segment succeeded, `--force-combine` even after failures. */
  function CombineTarget(forceCombine: string, combine: string, successCount: nat, total: nat): (r: Option<string>)
    ensures r.Some? ==> r.value == OutputFile(forceCombine, combine) && r.value != []
    ensures forceCombine != [] ==> r.Some?
    ensures forceCombine == [] ==> (r.Some? <==> combine != [] && successCount == total)
  {
    var out := OutputFile(forceCombine, combine);
    if out == [] || (forceCombine == [] && successCount != total) then None else Some(out)
  }

  /** The written test has the two flags' roles swapped: with a failure,
      plain `--combine` still combines and `--force-combine` does not. */
  lemma CombineGateSwapped()
    ensures CombineTargetAsWritten([], "out.mp4", 1, 2) == Some("out.mp4")
    ensures CombineTargetAsWritten("out.mp4", [], 1, 2) == None
    ensures CombineTarget([], "out.mp4", 1, 2) == None
    ensures CombineTarget("out.mp4", [], 1, 2) == Some("out.mp4")
  {
  }

  /** When every segment succeeded the two readings agree. */
  lemma CombineGatesAgreeOnFullSuccess(forceCombine: string, combine: string, total: nat)
    ensures CombineTargetAsWritten(forceCombine, combine, total, total) == CombineTarget(forceCombine, combine, total, total)
  {
  }

  // ---------------------------------------------------------------------
  // Ordering the results for the combiner

  /** The sort key as written: the first digit run of the path's base
      name, compared as a string. */
  function SortKeyAsWritten(path: string): (r: string)
    ensures AllDigits(r)
    ensures IsFirstDigitRun(Base(path), r)
  {
    var b := Base(path);
    FirstDigitRun(b)
  }

  predicate ResultLessAsWritten(a: BatchResult, b: BatchResult) {
    LexLess(SortKeyAsWritten(a.path), SortKeyAsWritten(b.path))
  }

  /** An extension that keeps a segment's number readable: it adds no path
      element and does not continue the digit run. */
  predicate KeepsOrdinal(ext: string) {
    '/' !in ext && (ext == [] || !IsDigit(ext[0]))
  }

  /** A segment's file name is a single path element. */
  lemma SegmentFilenameHasNoSlash(n: nat, ext: string)
    requires '/' !in ext
    ensures '/' !in SegmentFilename(n, ext)
  {
    var p := Pad4(n);
    var name := SegmentFilename(n, ext);
    Pad4RoundTrip(n);
    forall k | 0 <= k < |name|
      ensures name[k] != '/'
    {
      if 8 <= k < 8 + |p| {
        assert name[k] == p[k - 8];
      } else if k >= 8 + |p| {
        assert name[k] == ext[k - 8 - |p|];
      }
    }
  }

  /** The digit run of a segment file name is its padded ordinal. */
  lemma NameDigitRun(n: nat, ext: string)
    requires KeepsOrdinal(ext)
    ensures FirstDigitRun(SegmentFilename(n, ext)) == Pad4(n)
  {
    var d := Pad4(n);
    var prefix := "segment_";
    Pad4RoundTrip(n);
    assert SegmentFilename(n, ext) == prefix + (d + ext);
    assert forall k :: 0 <= k < |prefix| ==> !IsDigit(prefix[k]);
    FirstDigitRunSkips(prefix, d + ext);
    assert IsDigit((d + ext)[0]);
    LeadingDigitsOfRun(d, ext);
  }

  /** The digit run of a stored segment's base name is its padded ordinal. */
  lemma SegmentDigitRun(segmentsDir: string, n: nat, ext: string)
    requires KeepsOrdinal(ext)
    ensures FirstDigitRun(Base(Join(segmentsDir, SegmentFilename(n, ext)))) == Pad4(n)
  {
    SegmentFilenameHasNoSlash(n, ext);
    BaseOfJoin(segmentsDir, SegmentFilename(n, ext));
    NameDigitRun(n, ext);
  }

  /** Up to ordinal 9999 the written comparison orders segments by number. */
  lemma SortKeyOrdersBelow10000(a: BatchResult, na: nat, ea: string, b: BatchResult, nb: nat, eb: string, segmentsDir: string)
    requires na < 10000 && nb < 10000 && KeepsOrdinal(ea) && KeepsOrdinal(eb)
    requires a.path == Join(segmentsDir, SegmentFilename(na, ea))
    requires b.path == Join(segmentsDir, SegmentFilename(nb, eb))
    ensures ResultLessAsWritten(a, b) <==> na < nb
  {
    SegmentDigitRun(segmentsDir, na, ea);
    SegmentDigitRun(segmentsDir, nb, eb);
    Pad4Width(na);
    Pad4Width(nb);
    Pad4RoundTrip(na);
    Pad4RoundTrip(nb);
    LexLessIsNumericOnEqualLength(Pad4(na), Pad4(nb));
  }

  /** From 10000 on it does not: segment 10000 sorts before segment 9999. */
  lemma SortKeyMisordersPast9999(segmentsDir: string)
    ensures var late := BatchResult(true, Join(segmentsDir, SegmentFilename(10000, ".ts")), None);
      var early := BatchResult(true, Join(segmentsDir, SegmentFilename(9999, ".ts")), None);
      ResultLessAsWritten(late, early)
  {
    var late := Join(segmentsDir, SegmentFilename(10000, ".ts"));
    var early := Join(segmentsDir, SegmentFilename(9999, ".ts"));
    SegmentDigitRun(segmentsDir, 10000, ".ts");
    SegmentDigitRun(segmentsDir, 9999, ".ts");
    Pad4Of10000();
    Pad4Of9999();
    assert SortKeyAsWritten(late) == "10000";
    assert SortKeyAsWritten(early) == "9999";
    assert LexLess("10000", "9999");
  }

  lemma Pad4Of10000()
    ensures Pad4(10000) == "10000"
  {
    assert Digits(1) == "1";
    assert Digits(10) == Digits(1) + "0";
    assert Digits(100) == Digits(10) + "0";
    assert Digits(1000) == Digits(100) + "0";
    assert Digits(10000) == Digits(1000) + "0";
  }

  lemma Pad4Of9999()
    ensures Pad4(9999) == "9999"
  {
    assert Digits(9) == "9";
    assert Digits(99) == Digits(9) + "9";
    assert Digits(999) == Digits(99) + "9";
    assert Digits(9999) == Digits(999) + "9";
  }

  /** The key the ordering is meant to use: the number the digit run denotes. */
  function OrdinalKey(path: string): nat {
    Value(FirstDigitRun(Base(path)))
  }

  /** A stored segment's key is its ordinal, for every ordinal. */
  lemma OrdinalKeyOfSegment(segmentsDir: string, n: nat, ext: string)
    requires KeepsOrdinal(ext)
    ensures OrdinalKey(Join(segmentsDir, SegmentFilename(n, ext))) == n
  {
    SegmentDigitRun(segmentsDir, n, ext);
    Pad4RoundTrip(n);
  }

  /** The ordinal a result is combined by. */
  function ResultOrdinal(r: BatchResult): nat {
    OrdinalKey(r.path)
  }

  predicate SortedBy(rs: seq<BatchResult>, key: BatchResult -> nat) {
    forall i, j :: 0 <= i < j < |rs| ==> key(rs[i]) <= key(rs[j])
  }

  function InsertBy(r: BatchResult, sorted: seq<BatchResult>, key: BatchResult -> nat): (s: seq<BatchResult>)
    requires SortedBy(sorted, key)
    ensures SortedBy(s, key)
    ensures multiset(s) == multiset(sorted) + multiset{r}
    decreases |sorted|
  {
    if sorted == [] then [r]
    else if key(r) <= key(sorted[0]) then [r] + sorted
    else
      var rest := InsertBy(r, sorted[1..], key);
      assert sorted == [sorted[0]] + sorted[1..];
      forall k | 0 <= k < |rest|
        ensures key(sorted[0]) <= key(rest[k])
      {
        assert rest[k] in multiset(rest);
        if rest[k] != r {
          HeadIsLeast(sorted, key, rest[k]);
        }
      }
      ConsSorted(sorted[0], rest, key);
      [sorted[0]] + rest
  }

  /** A least element in front of a sorted list keeps it sorted. */
  lemma ConsSorted(x: BatchResult, rest: seq<BatchResult>, key: BatchResult -> nat)
    requires SortedBy(rest, key)
    requires forall k :: 0 <= k < |rest| ==> key(x) <= key(rest[k])
    ensures SortedBy([x] + rest, key)
  {
    var s := [x] + rest;
    forall i, j | 0 <= i < j < |s|
      ensures key(s[i]) <= key(s[j])
    {
      assert s[j] == rest[j - 1];
      if i > 0 {
        assert s[i] == rest[i - 1];
      }
    }
  }

  /** The head of a sorted list has the least key. */
  lemma HeadIsLeast(sorted: seq<BatchResult>, key: BatchResult -> nat, x: BatchResult)
    requires SortedBy(sorted, key) && sorted != [] && x in multiset(sorted[1..])
    ensures key(sorted[0]) <= key(x)
  {
    var m :| 0 <= m < |sorted[1..]| && sorted[1..][m] == x;
    assert sorted[m + 1] == x;
  }

  /** A permutation of `rs` in ascending `key` order. */
  function SortBy(rs: seq<BatchResult>, key: BatchResult -> nat): (s: seq<BatchResult>)
    ensures SortedBy(s, key)
    ensures multiset(s) == multiset(rs)
    decreases |rs|
  {
    if rs == [] then []
    else
      assert rs == [rs[0]] + rs[1..];
      InsertBy(rs[0], SortBy(rs[1..], key), key)
  }

  /** The results in the order they are combined in, as intended: a
      permutation of them, ascending by the number in each file name. */
  function SortByOrdinal(rs: seq<BatchResult>): (s: seq<BatchResult>)
    ensures multiset(s) == multiset(rs)
    ensures forall i, j :: 0 <= i < j < |s| ==> OrdinalKey(s[i].path) <= OrdinalKey(s[j].path)
  {
    var s := SortBy(rs, ResultOrdinal);
    assert forall i, j :: 0 <= i < j < |s| ==> ResultOrdinal(s[i]) <= ResultOrdinal(s[j]);
    s
  }

  // ---------------------------------------------------------------------
  // The order as written: `sort.Slice` with the string comparison

  /** What `sort.Slice` promises for a string comparison of keys: no
      element's key is less than the key of one before it. */
  predicate SortedByText(rs: seq<BatchResult>, key: BatchResult -> string) {
    forall i, j :: 0 <= i < j < |rs| ==> !LexLess(key(rs[j]), key(rs[i]))
  }

  function InsertByText(r: BatchResult, sorted: seq<BatchResult>, key: BatchResult -> string): (s: seq<BatchResult>)
    requires SortedByText(sorted, key)
    ensures SortedByText(s, key)
    ensures multiset(s) == multiset(sorted) + multiset{r}
    decreases |sorted|
  {
    if sorted == [] then [r]
    else if !LexLess(key(sorted[0]), key(r)) then
      InsertInFront(r, sorted, key);
      [r] + sorted
    else
      var rest := InsertByText(r, sorted[1..], key);
      assert sorted == [sorted[0]] + sorted[1..];
      InsertBehind(r, sorted, rest, key);
      [sorted[0]] + rest
  }

  /** `r` goes in front when the head's key is not less than its own. */
  lemma InsertInFront(r: BatchResult, sorted: seq<BatchResult>, key: BatchResult -> string)
    requires SortedByText(sorted, key) && sorted != [] && !LexLess(key(sorted[0]), key(r))
    ensures SortedByText([r] + sorted, key)
  {
    forall k | 0 <= k < |sorted|
      ensures !LexLess(key(sorted[k]), key(r))
    {
      if k > 0 {
        NotLexLessTransitive(key(r), key(sorted[0]), key(sorted[k]));
      }
    }
    ConsSortedByText(r, sorted, key);
  }

  /** Otherwise the head stays in front of `r` inserted into the tail. */
  lemma InsertBehind(r: BatchResult, sorted: seq<BatchResult>, rest: seq<BatchResult>, key: BatchResult -> string)
    requires SortedByText(sorted, key) && sorted != [] && LexLess(key(sorted[0]), key(r))
    requires SortedByText(rest, key) && multiset(rest) == multiset(sorted[1..]) + multiset{r}
    ensures SortedByText([sorted[0]] + rest, key)
  {
    forall k | 0 <= k < |rest|
      ensures !LexLess(key(rest[k]), key(sorted[0]))
    {
      assert rest[k] in multiset(rest);
      if rest[k] == r {
        LexLessAsymmetric(key(sorted[0]), key(r));
      } else {
        var m :| 0 <= m < |sorted[1..]| && sorted[1..][m] == rest[k];
        assert sorted[m + 1] == rest[k];
      }
    }
    ConsSortedByText(sorted[0], rest, key);
  }

  /** An element whose key no later key is less than keeps a sorted list
      sorted in front. */
  lemma ConsSortedByText(x: BatchResult, rest: seq<BatchResult>, key: BatchResult -> string)
    requires SortedByText(rest, key)
    requires forall k :: 0 <= k < |rest| ==> !LexLess(key(rest[k]), key(x))
    ensures SortedByText([x] + rest, key)
  {
    var s := [x] + rest;
    forall i, j | 0 <= i < j < |s|
      ensures !LexLess(key(s[j]), key(s[i]))
    {
      assert s[j] == rest[j - 1];
      if i > 0 {
        assert s[i] == rest[i - 1];
      }
    }
  }

  /** A permutation of `rs` that `sort.Slice` may return for the string
      comparison of keys: it is not stable, and this is the order an
      insertion sort gives. */
  function SortByText(rs: seq<BatchResult>, key: BatchResult -> string): (s: seq<BatchResult>)
    ensures SortedByText(s, key)
    ensures multiset(s) == multiset(rs)
    decreases |rs|
  {
    if rs == [] then []
    else
      assert rs == [rs[0]] + rs[1..];
      InsertByText(rs[0], SortByText(rs[1..], key), key)
  }

  /** The key a result is ordered by as written. */
  function ResultKeyAsWritten(r: BatchResult): string {
    SortKeyAsWritten(r.path)
  }

  /** The results in the order the command combines them: a permutation
      in which, comparing the first digit run of each base name as a
      string, no result is less than one before it. */
  function SortAsWritten(rs: seq<BatchResult>): (s: seq<BatchResult>)
    ensures multiset(s) == multiset(rs)
    ensures forall i, j :: 0 <= i < j < |s| ==> !LexLess(SortKeyAsWritten(s[j].path), SortKeyAsWritten(s[i].path))
  {
    var s := SortByText(rs, ResultKeyAsWritten);
    assert forall i, j :: 0 <= i < j < |s| ==> !LexLess(ResultKeyAsWritten(s[j]), ResultKeyAsWritten(s[i]));
    s
  }

  /** Below ordinal 10000 the order as written is also ascending by
      segment number, so there the two orders differ at most among
      results with the same number. */
  lemma AsWrittenOrderIsNumericBelow10000(rs: seq<BatchResult>, segmentsDir: string, ns: seq<nat>, es: seq<string>)
    requires |ns| == |rs| && |es| == |rs|
    requires forall k :: 0 <= k < |rs| ==>
               && ns[k] < 10000 && KeepsOrdinal(es[k])
               && rs[k].path == Join(segmentsDir, SegmentFilename(ns[k], es[k]))
    ensures var s := SortAsWritten(rs);
      forall i, j :: 0 <= i < j < |s| ==> OrdinalKey(s[i].path) <= OrdinalKey(s[j].path)
  {
    var s := SortAsWritten(rs);
    forall i, j | 0 <= i < j < |s|
      ensures OrdinalKey(s[i].path) <= OrdinalKey(s[j].path)
    {
      var ki := PermutedFrom(rs, s, i);
      var kj := PermutedFrom(rs, s, j);
      SortKeyOrdersBelow10000(s[j], ns[kj], es[kj], s[i], ns[ki], es[ki], segmentsDir);
      OrdinalKeyOfSegment(segmentsDir, ns[ki], es[ki]);
      OrdinalKeyOfSegment(segmentsDir, ns[kj], es[kj]);
    }
  }

  /** Where an element of a permutation came from. */
  lemma PermutedFrom(rs: seq<BatchResult>, s: seq<BatchResult>, i: nat) returns (k: nat)
    requires multiset(s) == multiset(rs) && i < |s|
    ensures k < |rs| && rs[k] == s[i]
  {
    assert s[i] in multiset(rs);
    k :| 0 <= k < |rs| && rs[k] == s[i];
  }
}

=== FILE: command.dfy ===
/** The command's `runE` as one function of its flags and of what its
    surroundings do: the fix-mode set-up, the playlist, the limit and the
    fix filter, the batch, the report, and the hand-off to the combiner. */
module Command {
  import opened Wrappers
  import opened Parser
  import opened Effects
  import opened Downloader
  import opened Cli
  import opened Paths

  datatype Flags = Flags(
    segmentsDir: string, forceExt: string, forceURLPrefix: string, cacheFile: string,
    combine: string, forceCombine: string, cleanup: bool, fix: string, limit: int, concurrent: int)

  /** The outcomes of the file-system, network and process calls. */
  datatype World = World(
    fixDirMissing: bool,                   // `os.Stat` says the fix directory does not exist
    listing: Option<seq<DirEntry>>,        // `os.ReadDir` of the fix directory
    mkdirOk: bool,                         // `os.MkdirAll` of the segments directory
    cached: Option<seq<Segment>>,          // the cache file, read and decoded
    playlist: Exchange<Option<string>>,    // fetching the playlist
    saveOk: bool,                          // writing the cache file
    urls: UrlCodec,
    segmentEffect: nat -> Exchange<Store>, // what worker i's download met
    fileListOk: bool,                      // creating the file list
    combineOk: bool)                       // running the combiner

  datatype RunError =
    | FixDirMissing
    | FixDirUnreadable
    | SegmentsDirNotCreated
    | PlaylistFailed(cause: PlaylistError)
    | FileListNotCreated
    | CombineFailed

  datatype Outcome = Outcome(
    err: Option<RunError>,
    downloaded: seq<Segment>,       // the segments handed to the batch
    results: seq<BatchResult>,
    allReported: bool,              // "All segments downloaded successfully!"
    fileList: Option<string>,       // what was written to the file list
    combinedInto: Option<string>,
    removedSegmentsDir: bool)

  function Stop(err: Option<RunError>): Outcome {
    Outcome(err, [], [], false, None, None, false)
  }

  /** The segments directory and the extension the run works with, or the
      set-up error that ends it. */
  function Setup(flags: Flags, world: World): (r: Result<(string, string), RunError>)
    ensures flags.fix != [] && world.fixDirMissing ==> r == Failure(FixDirMissing)
    ensures flags.fix != [] && !world.fixDirMissing && flags.forceExt == [] && world.listing.None? ==>
      r == Failure(FixDirUnreadable)
    ensures flags.fix != [] && !world.fixDirMissing && (flags.forceExt != [] || world.listing.Some?) ==> r.Success?
    ensures flags.fix == [] ==> (r.Success? <==> world.mkdirOk)
    ensures flags.fix == [] && !world.mkdirOk ==> r == Failure(SegmentsDirNotCreated)
    ensures r.Success? ==> r.value.0 == if flags.fix != [] then flags.fix else flags.segmentsDir
    ensures r.Success? && (flags.fix == [] || flags.forceExt != []) ==> r.value.1 == flags.forceExt
    ensures r.Success? && flags.fix != [] && flags.forceExt == [] ==>
      world.listing.Some? && forall i :: FirstFileAt(world.listing.value, i) ==> r.value.1 == Ext(world.listing.value[i].name)
    ensures r.Success? && flags.fix != [] && flags.forceExt == [] && world.listing.Some? ==>
      (forall k :: 0 <= k < |world.listing.value| ==> world.listing.value[k].isDir) ==> r.value.1 == []
  {
    if flags.fix != [] then
      if world.fixDirMissing then Failure(FixDirMissing)
      else if flags.forceExt == [] then
        match world.listing
        case None => Failure(FixDirUnreadable)
        case Some(entries) => Success((flags.fix, FixExtension([], entries)))
      else Success((flags.fix, flags.forceExt))
    else if !world.mkdirOk then Failure(SegmentsDirNotCreated)
    else Success((flags.segmentsDir, flags.forceExt))
  }

  /** The playlist the run works from: the cache or the fetch. */
  function Playlist(flags: Flags, world: World, ext: string): Result<seq<Segment>, PlaylistError> {
    DownloadM3U8(flags.cacheFile, world.cached, world.playlist, flags.forceURLPrefix, ext, world.urls, world.saveOk).result
  }

  /** The segments to download: the playlist's, limited, and in fix mode
      only those not already present. A directory that cannot be read
      counts as empty, as `files, _ := os.ReadDir(...)` does. */
  function ToDownload(segments: seq<Segment>, flags: Flags, world: World): (r: seq<Segment>)
    ensures flags.limit > 0 ==> |r| <= flags.limit
    ensures flags.fix != [] ==> r == MissingSegments(ApplyLimit(segments, flags.limit), world.listing.GetOr([]))
    ensures flags.fix != [] ==> forall s :: s in r ==> Stem(s.filename) !in ExistingStems(world.listing.GetOr([]))
    ensures flags.fix == [] ==> r == ApplyLimit(segments, flags.limit)
  {
    var limited := ApplyLimit(segments, flags.limit);
    if flags.fix != [] then
      var missing := MissingSegments(limited, world.listing.GetOr([]));
      SubsequenceNoLonger(missing, limited);
      missing
    else limited
  }

  /** Which reading of the combine step a run follows: the code as
      written (the gate of main.go:149, the string comparison of
      main.go:156-160), or the one the flag help and the comment describe
      (`--combine` only after full success, numeric order). */
  datatype Reading = AsWritten | Intended

  /** The output file the run combines into, if it combines. */
  function Gate(reading: Reading, forceCombine: string, combine: string, successCount: nat, total: nat): Option<string> {
    match reading
    case AsWritten => CombineTargetAsWritten(forceCombine, combine, successCount, total)
    case Intended => CombineTarget(forceCombine, combine, successCount, total)
  }

  /** The order the results are listed for the combiner in. */
  function CombineOrder(reading: Reading, results: seq<BatchResult>): seq<BatchResult> {
    match reading
    case AsWritten => SortAsWritten(results)
    case Intended => SortByOrdinal(results)
  }

  /** What the batch and the steps after it leave behind, for the
      segments `segs` stored under `dir`: a result per segment in its own
      slot, the report, and then, only if the gate opens, the file list,
      the combiner and the clean-up, each failure ending the run with its
      own error. */
  predicate Finished(o: Outcome, flags: Flags, world: World, dir: string, segs: seq<Segment>, reading: Reading) {
    && o.downloaded == segs
    && |o.results| == |segs|
    && (forall i :: 0 <= i < |segs| ==> o.results[i] == DownloadSegment(segs[i], dir, world.segmentEffect(i)))
    && (o.allReported <==> forall i :: 0 <= i < |o.results| ==> o.results[i].success)
    && var gate := Gate(reading, flags.forceCombine, flags.combine, |SuccessfulPaths(o.results)|, |segs|);
    && (gate.None? ==>
          o.err == None && o.fileList == None && o.combinedInto == None && !o.removedSegmentsDir)
    && (gate.Some? && !world.fileListOk ==>
          o.err == Some(FileListNotCreated) && o.fileList == None && o.combinedInto == None && !o.removedSegmentsDir)
    && (gate.Some? && world.fileListOk ==>
          o.fileList == Some(FileList(CombineOrder(reading, o.results))))
    && (gate.Some? && world.fileListOk && !world.combineOk ==>
          o.err == Some(CombineFailed) && o.combinedInto == None && !o.removedSegmentsDir)
    && (gate.Some? && world.fileListOk && world.combineOk ==>
          o.err == None && o.combinedInto == gate && o.removedSegmentsDir == flags.cleanup)
  }

  /** The batch and everything after it. */
  function Finish(flags: Flags, world: World, dir: string, segs: seq<Segment>, reading: Reading): (o: Outcome)
    ensures Finished(o, flags, world, dir, segs, reading)
    // combining needs an output file; `--force-combine` as written needs full success
    ensures o.combinedInto.Some? ==> o.combinedInto.value == OutputFile(flags.forceCombine, flags.combine) != []
    ensures reading == AsWritten && o.combinedInto.Some? ==> flags.forceCombine == [] || o.allReported
    ensures reading == Intended && o.combinedInto.Some? ==> flags.forceCombine != [] || o.allReported
  {
    var results := BatchResults(segs, dir, world.segmentEffect);
    var count := |SuccessfulPaths(results)|;
    var all := count == |segs|;
    match Gate(reading, flags.forceCombine, flags.combine, count, |segs|)
    case None => Outcome(None, segs, results, all, None, None, false)
    case Some(out) =>
      var list := FileList(CombineOrder(reading, results));
      if !world.fileListOk then Outcome(Some(FileListNotCreated), segs, results, all, None, None, false)
      else if !world.combineOk then Outcome(Some(CombineFailed), segs, results, all, Some(list), None, false)
      else Outcome(None, segs, results, all, Some(list), Some(out), flags.cleanup)
  }

  /** The run ends: it stops before the batch, or the batch's semaphore
      lets workers through. A negative `--concurrent` makes `newSemaphore`
      panic, and zero blocks the first worker forever. */
  predicate Completes(flags: Flags, world: World) {
    match Setup(flags, world)
    case Failure(_) => true
    case Success((dir, ext)) =>
      match Playlist(flags, world, ext)
      case Failure(_) => true
      case Success(segments) =>
        var segs := ToDownload(segments, flags, world);
        (flags.fix != [] && segs == []) || flags.concurrent >= 1 || (flags.concurrent == 0 && segs == [])
  }

  /** `runE` from the flags on (the headers file and the logger are not
      part of this model), under either reading of the combine step. */
  function Run(flags: Flags, world: World, reading: Reading): (o: Outcome)
    requires Completes(flags, world)
    // a set-up or playlist failure ends the run with that error, before any download
    ensures Setup(flags, world).Failure? ==> o == Stop(Some(Setup(flags, world).error))
    ensures Setup(flags, world).Success? && Playlist(flags, world, Setup(flags, world).value.1).Failure? ==>
              o == Stop(Some(PlaylistFailed(Playlist(flags, world, Setup(flags, world).value.1).error)))
    // otherwise exactly the limited, and in fix mode missing, segments are
    // downloaded; fix mode with nothing missing stops there without error,
    // and every other run goes through the batch and the combine step
    ensures var setup := Setup(flags, world);
      setup.Success? && Playlist(flags, world, setup.value.1).Success? ==>
        var segs := ToDownload(Playlist(flags, world, setup.value.1).value, flags, world);
        && o.downloaded == segs
        && (flags.fix != [] && segs == [] ==> o == Stop(None))
        && (flags.fix == [] || segs != [] ==> Finished(o, flags, world, setup.value.0, segs, reading))
    // at most `limit` segments are downloaded
    ensures flags.limit > 0 ==> |o.downloaded| <= flags.limit
    // in fix mode nothing already present is downloaded again
    ensures flags.fix != [] ==>
              forall s :: s in o.downloaded ==> Stem(s.filename) !in ExistingStems(world.listing.GetOr([]))
  {
    match Setup(flags, world)
    case Failure(e) => Stop(Some(e))
    case Success((dir, ext)) =>
      match Playlist(flags, world, ext)
      case Failure(e) => Stop(Some(PlaylistFailed(e)))
      case Success(segments) =>
        var segs := ToDownload(segments, flags, world);
        if flags.fix != [] && segs == [] then Stop(None)   // "All segments are already downloaded"
        else Finish(flags, world, dir, segs, reading)
  }

  /** Failed segment downloads never fail the run: once set-up and the
      playlist succeed, the run fails only if the file list or the
      combiner does, whatever happened to the segments. */
  lemma SegmentFailuresNeverFailTheRun(flags: Flags, world: World, reading: Reading)
    requires Completes(flags, world)
    requires Setup(flags, world).Success? && Playlist(flags, world, Setup(flags, world).value.1).Success?
    requires world.fileListOk && world.combineOk
    ensures Run(flags, world, reading).err == None
  {
    var setup := Setup(flags, world);
    var segs := ToDownload(Playlist(flags, world, setup.value.1).value, flags, world);
    var o := Run(flags, world, reading);
    if flags.fix == [] || segs != [] {
      FinishedWithoutError(o, flags, world, setup.value.0, segs, reading);
    }
  }

  /** With the file list and the combiner working, the batch and the
      combine step end without error. */
  lemma FinishedWithoutError(o: Outcome, flags: Flags, world: World, dir: string, segs: seq<Segment>, reading: Reading)
    requires Finished(o, flags, world, dir, segs, reading)
    requires world.fileListOk && world.combineOk
    ensures o.err == None
  {
  }

  /** The two readings part ways once a segment has failed: as written,
      plain `--combine` still combines and `--force-combine` does not;
      as the flags describe it, it is the other way round. */
  lemma ReadingsPartOnFailure(flags: Flags, world: World, dir: string, segs: seq<Segment>, failed: nat)
    requires failed < |segs| && world.segmentEffect(failed) != Responded(StatusOK, Stored)
    requires OutputFile(flags.forceCombine, flags.combine) != []
    requires world.fileListOk && world.combineOk
    ensures flags.forceCombine == [] ==>
              && Finish(flags, world, dir, segs, AsWritten).combinedInto == Some(flags.combine)
              && Finish(flags, world, dir, segs, Intended).combinedInto == None
    ensures flags.forceCombine != [] ==>
              && Finish(flags, world, dir, segs, AsWritten).combinedInto == None
              && Finish(flags, world, dir, segs, Intended).combinedInto == Some(flags.forceCombine)
  {
    var written, intended := Finish(flags, world, dir, segs, AsWritten), Finish(flags, world, dir, segs, Intended);
    assert !written.results[failed].success;
    assert !intended.results[failed].success;
  }

  /** In fix mode, a directory that already holds every segment ends the
      run successfully without downloading anything, whatever
      `--concurrent` says. */
  lemma FixWithNothingMissing(flags: Flags, world: World, reading: Reading)
    requires flags.fix != [] && !world.fixDirMissing
    requires flags.forceExt != [] || world.listing.Some?
    requires var ext := if flags.forceExt != [] then flags.forceExt else FixExtension([], world.listing.value);
      && Playlist(flags, world, ext).Success?
      && forall s :: s in ApplyLimit(Playlist(flags, world, ext).value, flags.limit) ==>
           Stem(s.filename) in ExistingStems(world.listing.GetOr([]))
    ensures Completes(flags, world)
    ensures Run(flags, world, reading) == Stop(None)
  {
    var ext := if flags.forceExt != [] then flags.forceExt else FixExtension([], world.listing.value);
    assert Setup(flags, world) == Success((flags.fix, ext));
    var segments := Playlist(flags, world, ext).value;
    NothingMissing(ApplyLimit(segments, flags.limit), world.listing.GetOr([]));
    assert ToDownload(segments, flags, world) == [];
  }
}

=== FILE: decimal.dfy ===
/** Decimal digit strings: Go's `%04d` verb for non-negative numbers and
    the `\d+` digit runs the command line sorts results by. */
module Decimal {
  import opened Text

  predicate IsDigit(c: char) {
    '0' <= c <= '9'
  }

  predicate AllDigits(s: string) {
    forall k :: 0 <= k < |s| ==> IsDigit(s[k])
  }

  function DigitChar(d: nat): (c: char)
    requires d < 10
    ensures IsDigit(c)
  {
    ('0' as int + d) as char
  }

  function DigitValue(c: char): (d: nat)
    requires IsDigit(c)
    ensures d < 10 && DigitChar(d) == c
  {
    c as int - '0' as int
  }

  function Pow10(k: nat): (p: nat)
    ensures p >= 1
  {
    if k == 0 then 1 else 10 * Pow10(k - 1)
  }

  /** The shortest decimal representation of `n` (`strconv.Itoa`). */
  function Digits(n: nat): (r: string)
    ensures |r| >= 1 && AllDigits(r)
    decreases n
  {
    if n < 10 then [DigitChar(n)] else Digits(n / 10) + [DigitChar(n % 10)]
  }

  /** The number a digit string denotes, leading zeros allowed. */
  function Value(s: string): (v: nat)
    requires AllDigits(s)
    ensures v < Pow10(|s|)
    decreases |s|
  {
    if s == [] then 0 else Value(s[..|s| - 1]) * 10 + DigitValue(s[|s| - 1])
  }

  /** `fmt.Sprintf("%04d", n)` for `n >= 0`: the digits of `n`, padded on
      the left with zeros to at least four characters. */
  function Pad4(n: nat): (r: string)
    ensures AllDigits(r)
    ensures |r| == if |Digits(n)| < 4 then 4 else |Digits(n)|
    ensures r[|r| - |Digits(n)|..] == Digits(n)
    ensures forall k :: 0 <= k < |r| - |Digits(n)| ==> r[k] == '0'
  {
    var d := Digits(n);
    if |d| < 4 then seq(4 - |d|, _ => '0') + d else d
  }

  /** `Value` reads back what `Digits` wrote. */
  lemma {:induction false} ValueOfDigits(n: nat)
    ensures Value(Digits(n)) == n
    decreases n
  {
    if n >= 10 {
      ValueOfDigits(n / 10);
      var d := Digits(n);
      assert d[..|d| - 1] == Digits(n / 10);
    }
  }

  /** Leading zeros do not change the value. */
  lemma {:induction false} ValueIgnoresLeadingZeros(z: nat, d: string)
    requires AllDigits(d)
    ensures AllDigits(seq(z, _ => '0') + d)
    ensures Value(seq(z, _ => '0') + d) == Value(d)
    decreases |d|
  {
    var s := seq(z, _ => '0') + d;
    if d == [] {
      assert s == seq(z, _ => '0');
      ZerosHaveNoValue(z);
    } else {
      var d' := d[..|d| - 1];
      assert s[..|s| - 1] == seq(z, _ => '0') + d';
      ValueIgnoresLeadingZeros(z, d');
    }
  }

  lemma {:induction false} ZerosHaveNoValue(z: nat)
    ensures AllDigits(seq(z, _ => '0'))
    ensures Value(seq(z, _ => '0')) == 0
  {
    if z > 0 {
      assert seq(z, _ => '0')[..z - 1] == seq(z - 1, _ => '0');
      ZerosHaveNoValue(z - 1);
    }
  }

  /** `%04d` is a faithful encoding: reading the padded digits back gives
      the number, so distinct ordinals never share a padded form. */
  lemma Pad4RoundTrip(n: nat)
    ensures AllDigits(Pad4(n))
    ensures |Pad4(n)| >= 4
    ensures Value(Pad4(n)) == n
  {
    var d := Digits(n);
    ValueOfDigits(n);
    if |d| < 4 {
      ValueIgnoresLeadingZeros(4 - |d|, d);
    }
  }

  lemma Pad4Injective(a: nat, b: nat)
    requires Pad4(a) == Pad4(b)
    ensures a == b
  {
    Pad4RoundTrip(a);
    Pad4RoundTrip(b);
  }

  /** Below 10000, `%04d` yields exactly four digits. */
  lemma {:induction false} DigitsLength(n: nat, k: nat)
    requires k >= 1 && n < Pow10(k)
    ensures |Digits(n)| <= k
    decreases n
  {
    if n >= 10 {
      assert k >= 2;
      assert n / 10 < Pow10(k - 1);
      DigitsLength(n / 10, k - 1);
    }
  }

  lemma Pad4Width(n: nat)
    requires n < 10000
    ensures |Pad4(n)| == 4
  {
    assert Pow10(4) == 10000;
    DigitsLength(n, 4);
  }

  /** The longest all-digit prefix of `s`. */
  function LeadingDigits(s: string): (r: string)
    ensures |r| <= |s| && r == s[..|r|] && AllDigits(r)
    ensures |r| == |s| || !IsDigit(s[|r|])
    decreases |s|
  {
    if s != [] && IsDigit(s[0]) then [s[0]] + LeadingDigits(s[1..]) else []
  }

  /** The position of the first ASCII digit of `s`, or `|s|` when there
      is none. */
  function FirstDigitAt(s: string): (i: nat)
    ensures i <= |s|
    ensures forall k :: 0 <= k < i ==> !IsDigit(s[k])
    ensures i == |s| || IsDigit(s[i])
    decreases |s|
  {
    if s == [] || IsDigit(s[0]) then 0 else 1 + FirstDigitAt(s[1..])
  }

  /** `r` is the run of `s` that starts at its first digit and stops at
      the next non-digit or at the end. */
  predicate IsFirstDigitRun(s: string, r: string) {
    var i := FirstDigitAt(s);
    i + |r| <= |s| && r == s[i..i + |r|] && (i + |r| == |s| || !IsDigit(s[i + |r|]))
  }

  /** What Go's `regexp.MustCompile(`(\d+)`).FindString(s)` returns: the
      leftmost maximal run of ASCII digits, or "" when there is none. */
  function FirstDigitRun(s: string): (r: string)
    ensures AllDigits(r)
    ensures IsFirstDigitRun(s, r)
    decreases |s|
  {
    if s == [] then []
    else if IsDigit(s[0]) then LeadingDigits(s)
    else FirstDigitRun(s[1..])
  }

  /** The search finds nothing exactly when the string has no digit. */
  lemma {:induction false} FirstDigitRunEmpty(s: string)
    ensures FirstDigitRun(s) == [] <==> (forall k :: 0 <= k < |s| ==> !IsDigit(s[k]))
    decreases |s|
  {
    if s != [] && !IsDigit(s[0]) {
      FirstDigitRunEmpty(s[1..]);
      assert forall k :: 1 <= k < |s| ==> s[k] == s[1..][k - 1];
    }
  }

  /** A digit-free prefix is passed over by the digit-run search. */
  lemma {:induction false} FirstDigitRunSkips(p: string, t: string)
    requires forall k :: 0 <= k < |p| ==> !IsDigit(p[k])
    ensures FirstDigitRun(p + t) == FirstDigitRun(t)
    decreases |p|
  {
    if p != [] {
      assert (p + t)[1..] == p[1..] + t;
      FirstDigitRunSkips(p[1..], t);
    } else {
      assert p + t == t;
    }
  }

  /** A digit run followed by a non-digit (or nothing) is read whole. */
  lemma {:induction false} LeadingDigitsOfRun(d: string, t: string)
    requires AllDigits(d)
    requires t == [] || !IsDigit(t[0])
    ensures LeadingDigits(d + t) == d
    decreases |d|
  {
    if d != [] {
      assert (d + t)[1..] == d[1..] + t;
      LeadingDigitsOfRun(d[1..], t);
      assert d == [d[0]] + d[1..];
    } else {
      assert d + t == t;
    }
  }

  /** Reading a digit string from its first digit. */
  lemma {:induction false} ValueFromFront(s: string)
    requires |s| >= 1 && AllDigits(s)
    ensures Value(s) == DigitValue(s[0]) * Pow10(|s| - 1) + Value(s[1..])
    decreases |s|
  {
    if |s| > 1 {
      var init := s[..|s| - 1];
      ValueFromFront(init);
      assert init[1..] == s[1..][..|s| - 2];
      assert init[0] == s[0];
      var last := DigitValue(s[|s| - 1]);
      assert Value(s) == Value(init) * 10 + last;
      assert Value(s[1..]) == Value(init[1..]) * 10 + last;
      ShiftDigit(DigitValue(s[0]), Pow10(|s| - 2), Value(init[1..]), last);
    }
  }

  lemma ShiftDigit(a: nat, p: nat, v: nat, d: nat)
    ensures (a * p + v) * 10 + d == a * (10 * p) + (v * 10 + d)
  {
  }

  lemma ScaleStep(a: nat, b: nat, p: nat, v: nat, w: nat)
    requires a < b && v < p
    ensures a * p + v < b * p + w
  {
    assert (a + 1) * p <= b * p;
  }

  /** On digit strings of one length, Go's string order is numeric order. */
  lemma {:induction false} LexLessIsNumericOnEqualLength(s: string, t: string)
    requires |s| == |t| && AllDigits(s) && AllDigits(t)
    ensures LexLess(s, t) <==> Value(s) < Value(t)
    decreases |s|
  {
    if |s| > 0 {
      var p := Pow10(|s| - 1);
      ValueFromFront(s);
      ValueFromFront(t);
      var a, b := DigitValue(s[0]), DigitValue(t[0]);
      assert Value(s[1..]) < p && Value(t[1..]) < p;
      if a < b {
        ScaleStep(a, b, p, Value(s[1..]), Value(t[1..]));
      } else if a > b {
        ScaleStep(b, a, p, Value(t[1..]), Value(s[1..]));
      } else {
        LexLessIsNumericOnEqualLength(s[1..], t[1..]);
      }
    }
  }
}

=== FILE: downloader.dfy ===
/** The package downloader (`pkg/m3u8/downloader.go`): the cache-or-fetch
    decision for the playlist, the per-segment download classified by
    what the network and the file system did, and the batch that keeps
    results aligned with the segments. */
module Downloader {
  import opened Wrappers
  import opened Parser
  import opened Paths
  import opened Effects
  import Workers

  datatype PlaylistError =
    | PlaylistRequestRejected        // "failed to create request"
    | PlaylistUnreachable            // "failed to download m3u8"
    | PlaylistStatus(code: int)      // "unexpected status code"
    | PlaylistUnreadable             // "failed to read m3u8"
    | PlaylistUnparsable(cause: ParseError)

  /** `fetchM3U8`: request the playlist, insist on 200, read the body and
      parse all of it. */
  function FetchM3U8(response: Exchange<Option<string>>, forceURLPrefix: string, forceExt: string, urls: UrlCodec)
    : (r: Result<seq<Segment>, PlaylistError>)
    // each failing step gives its own error
    ensures response.RequestRejected? ==> r == Failure(PlaylistRequestRejected)
    ensures response.TransportFailed? ==> r == Failure(PlaylistUnreachable)
    ensures response.Responded? && response.status != StatusOK ==> r == Failure(PlaylistStatus(response.status))
    ensures response == Responded(StatusOK, None) ==> r == Failure(PlaylistUnreadable)
    // a readable 200 body is parsed whole: its segments, or the parse error
    ensures response.Responded? && response.status == StatusOK && response.body.Some? ==>
              var parsed := ParseZeroLimitIsAll(response.body.value, forceURLPrefix, forceExt, 0, 0, urls);
              && (parsed.Success? ==> r == Success(parsed.value))
              && (parsed.Failure? ==> r == Failure(PlaylistUnparsable(parsed.error)))
    ensures r.Success? ==> response.Responded? && response.status == StatusOK && response.body.Some?
    ensures r.Success? ==> |r.value| >= 1
  {
    match response
    case RequestRejected => Failure(PlaylistRequestRejected)
    case TransportFailed => Failure(PlaylistUnreachable)
    case Responded(status, body) =>
      if status != StatusOK then Failure(PlaylistStatus(status))
      else if body.None? then Failure(PlaylistUnreadable)
      else
        match ParseZeroLimitIsAll(body.value, forceURLPrefix, forceExt, 0, 0, urls)
        case Success(segments) => Success(segments)
        case Failure(e) => Failure(PlaylistUnparsable(e))
  }

  /** What `DownloadM3U8` returns, the segments it hands to `saveCache`
      (if any), and whether it logged a failed save. */
  datatype PlaylistLoad = PlaylistLoad(result: Result<seq<Segment>, PlaylistError>, saved: Option<seq<Segment>>, warned: bool)

  /** `DownloadM3U8`. `cached` is what `loadCache` produced (`None` when
      reading or decoding the cache file failed); `saveOk` whether
      `saveCache` succeeded. */
  function DownloadM3U8(cacheFile: string, cached: Option<seq<Segment>>, response: Exchange<Option<string>>,
                        forceURLPrefix: string, forceExt: string, urls: UrlCodec, saveOk: bool)
    : (r: PlaylistLoad)
    // a usable cache wins, and nothing is fetched or saved
    ensures cacheFile != [] && cached.Some? ==> r == PlaylistLoad(Success(cached.value), None, false)
    // otherwise the fetch decides, and its errors propagate unsaved
    ensures (cacheFile == [] || cached.None?) ==> r.result == FetchM3U8(response, forceURLPrefix, forceExt, urls)
    ensures r.result.Failure? ==> r.saved.None? && !r.warned
    // fresh segments are returned whether or not saving them worked
    ensures (cacheFile == [] || cached.None?) && r.result.Success? ==>
              && r.saved == (if cacheFile != [] then Some(r.result.value) else None)
              && (r.warned <==> cacheFile != [] && !saveOk)
  {
    if cacheFile != [] && cached.Some? then PlaylistLoad(Success(cached.value), None, false)
    else
      match FetchM3U8(response, forceURLPrefix, forceExt, urls)
      case Failure(e) => PlaylistLoad(Failure(e), None, false)
      case Success(segments) =>
        if cacheFile != [] then PlaylistLoad(Success(segments), Some(segments), !saveOk)
        else PlaylistLoad(Success(segments), None, false)
  }

  datatype DownloadError =
    | RequestNotCreated        // "failed to create request"
    | DownloadFailed           // "failed to download"
    | UnexpectedStatus(code: int)
    | FileNotCreated           // "failed to create file"
    | FileNotWritten           // "failed to write file"

  /** `BatchResult`; `error` is `None` for Go's nil. */
  datatype BatchResult = BatchResult(success: bool, path: string, error: Option<DownloadError>)

  /** Where a segment is stored. */
  function SegmentPath(segmentsDir: string, segment: Segment): string {
    Join(segmentsDir, segment.filename)
  }

  /** `downloadSegment`: the outcome of one segment's request, status
      check, file creation and copy, stopping at the first failure. */
  function DownloadSegment(segment: Segment, segmentsDir: string, effect: Exchange<Store>): (r: BatchResult)
    ensures r.path == SegmentPath(segmentsDir, segment)
    ensures r.success <==> r.error.None?
    ensures r.success <==> effect == Responded(StatusOK, Stored)
    ensures effect.RequestRejected? ==> r.error == Some(RequestNotCreated)
    ensures effect.TransportFailed? ==> r.error == Some(DownloadFailed)
    ensures effect.Responded? && effect.status != StatusOK ==> r.error == Some(UnexpectedStatus(effect.status))
    ensures effect.Responded? && effect.status == StatusOK && effect.body != Stored ==>
              r.error == Some(if effect.body == CreateFailed then FileNotCreated else FileNotWritten)
  {
    var outPath := SegmentPath(segmentsDir, segment);
    match effect
    case RequestRejected => BatchResult(false, outPath, Some(RequestNotCreated))
    case TransportFailed => BatchResult(false, outPath, Some(DownloadFailed))
    case Responded(status, store) =>
      if status != StatusOK then BatchResult(false, outPath, Some(UnexpectedStatus(status)))
      else
        match store
        case CreateFailed => BatchResult(false, outPath, Some(FileNotCreated))
        case CopyFailed => BatchResult(false, outPath, Some(FileNotWritten))
        case Stored => BatchResult(true, outPath, None)
  }

  /** The batch's results as a plain map over positions: slot `i` is the
      outcome of segment `i` under the effect its worker saw. */
  function BatchResults(segments: seq<Segment>, segmentsDir: string, effect: nat -> Exchange<Store>)
    : (rs: seq<BatchResult>)
    ensures |rs| == |segments|
    ensures forall i :: 0 <= i < |rs| ==> rs[i] == DownloadSegment(segments[i], segmentsDir, effect(i))
  {
    seq(|segments|, i requires 0 <= i < |segments| => DownloadSegment(segments[i], segmentsDir, effect(i)))
  }

  /** `DownloadBatch`: one worker per segment, at most `concurrency` at a
      time, finishing in the order `schedule` gives. A negative
      concurrency makes `newSemaphore` panic, and a zero one blocks the
      first worker forever; with no segments a zero one is harmless. */
  method DownloadBatch(segments: seq<Segment>, segmentsDir: string, concurrency: int,
                       effect: nat -> Exchange<Store>, schedule: seq<nat>)
    returns (results: seq<BatchResult>)
    requires concurrency >= 1 || (concurrency == 0 && segments == [])
    requires forall k :: 0 <= k < |schedule| ==> schedule[k] < |segments|
    requires forall i :: 0 <= i < |segments| ==> i in schedule
    ensures |results| == |segments|
    ensures forall i :: 0 <= i < |segments| ==>
              && results[i].path == SegmentPath(segmentsDir, segments[i])
              && results[i] == DownloadSegment(segments[i], segmentsDir, effect(i))
    ensures results == BatchResults(segments, segmentsDir, effect)
  {
    var work := (i: nat, s: Segment) => DownloadSegment(s, segmentsDir, effect(i));
    results := Workers.RunAll(segments, work, BatchResult(false, [], None), schedule);
    forall i | 0 <= i < |segments|
      ensures results[i] == DownloadSegment(segments[i], segmentsDir, effect(i))
    {
      assert results[i] == work(i, segments[i]);
    }
  }

  /** One segment's failure leaves every other slot as it would have been:
      changing the effect seen by worker `k` changes only slot `k`. */
  lemma FailureIsIsolated(segments: seq<Segment>, segmentsDir: string, effect: nat -> Exchange<Store>,
                          k: nat, other: Exchange<Store>)
    ensures var changed := (i: nat) => if i == k then other else effect(i);
      var a := BatchResults(segments, segmentsDir, effect);
      var b := BatchResults(segments, segmentsDir, changed);
      forall i :: 0 <= i < |segments| && i != k ==> a[i] == b[i]
  {
  }
}

=== FILE: effects.dfy ===
/** The outcomes of the I/O the downloaders perform, as inputs to the model. */
module Effects {

  /** One HTTP exchange: the request could not be built
      (`http.NewRequestWithContext` failed), it could not be carried out
      (`client.Do` or `client.Get` failed), or a response arrived with a
      status code and a body whose handling produced `body`. */
  datatype Exchange<+B> = RequestRejected | TransportFailed | Responded(status: int, body: B)

  /** Storing a segment's body: `os.Create` failed, `io.Copy` failed, or
      the file was written. */
  datatype Store = CreateFailed | CopyFailed | Stored

  /** `http.StatusOK`. */
  const StatusOK: int := 200
}

=== FILE: legacy.dfy ===
/** The older downloader in the repository root (`downloader.go`): a
    softer cache, no status check on the playlist, and segment results
    without an error value. Its parser is not part of this model, so the
    playlist download takes the parse as a function. */
module Legacy {
  import opened Wrappers
  import opened Parser
  import opened Effects
  import Downloader
  import Workers

  datatype PlaylistError =
    | PlaylistUnreachable    // "failed to download m3u8"
    | PlaylistUnreadable     // "failed to read m3u8"

  /** What `downloadM3U8` returns and the segments it tries to write to
      the cache file (the write's own failure is ignored). */
  datatype PlaylistLoad = PlaylistLoad(result: Result<seq<Segment>, PlaylistError>, saved: Option<seq<Segment>>)

  /** `downloadM3U8`. `cached` is `Some` when the cache file was read and
      decoded; any failure there falls through to a fresh fetch. */
  function DownloadM3U8(cacheFile: string, cached: Option<seq<Segment>>, response: Exchange<Option<string>>,
                        parse: string -> seq<Segment>)
    : (r: PlaylistLoad)
    ensures cacheFile != [] && cached.Some? ==> r == PlaylistLoad(Success(cached.value), None)
    // the body is parsed whatever the status code
    ensures (cacheFile == [] || cached.None?) && response.Responded? && response.body.Some? ==>
              r.result == Success(parse(response.body.value))
    ensures (cacheFile == [] || cached.None?) && (response.RequestRejected? || response.TransportFailed?) ==>
              r == PlaylistLoad(Failure(PlaylistUnreachable), None)
    ensures (cacheFile == [] || cached.None?) && response.Responded? && response.body.None? ==>
              r == PlaylistLoad(Failure(PlaylistUnreadable), None)
    ensures r.saved.Some? <==> cacheFile != [] && r.result.Success? && !cached.Some?
    ensures r.saved.Some? ==> r.saved.value == r.result.value
  {
    if cacheFile != [] && cached.Some? then PlaylistLoad(Success(cached.value), None)
    else
      match response
      case RequestRejected => PlaylistLoad(Failure(PlaylistUnreachable), None)
      case TransportFailed => PlaylistLoad(Failure(PlaylistUnreachable), None)
      case Responded(_, body) =>
        if body.None? then PlaylistLoad(Failure(PlaylistUnreadable), None)
        else
          var segments := parse(body.value);
          PlaylistLoad(Success(segments), if cacheFile != [] then Some(segments) else None)
  }

  /** `BatchResult` of this version: success flag and path only. */
  datatype BatchResult = BatchResult(success: bool, path: string)

  /** `downloadSegment` (failures are printed, which is not modelled). */
  function DownloadSegment(segment: Segment, segmentsDir: string, effect: Exchange<Store>): (r: BatchResult)
    ensures r.path == Downloader.SegmentPath(segmentsDir, segment)
    ensures r.success <==> effect == Responded(StatusOK, Stored)
  {
    var outPath := Downloader.SegmentPath(segmentsDir, segment);
    match effect
    case RequestRejected => BatchResult(false, outPath)
    case TransportFailed => BatchResult(false, outPath)
    case Responded(status, store) =>
      if status != StatusOK then BatchResult(false, outPath)
      else
        match store
        case CreateFailed => BatchResult(false, outPath)
        case CopyFailed => BatchResult(false, outPath)
        case Stored => BatchResult(true, outPath)
  }

  /** The two versions classify every outcome alike: the old result is the
      new one without its error. */
  lemma SegmentOutcomeAgrees(segment: Segment, segmentsDir: string, effect: Exchange<Store>)
    ensures var now := Downloader.DownloadSegment(segment, segmentsDir, effect);
      DownloadSegment(segment, segmentsDir, effect) == BatchResult(now.success, now.path)
  {
  }

  /** `downloadBatch`: as in the package version, slot `i` is segment
      `i`'s outcome whatever order the workers finish in. `NewSemaphore`
      is not part of this model; it is taken to be a channel of the given
      capacity like the package's `newSemaphore`. */
  method DownloadBatch(segments: seq<Segment>, segmentsDir: string, concurrency: int,
                       effect: nat -> Exchange<Store>, schedule: seq<nat>)
    returns (results: seq<BatchResult>)
    requires concurrency >= 1 || (concurrency == 0 && segments == [])
    requires forall k :: 0 <= k < |schedule| ==> schedule[k] < |segments|
    requires forall i :: 0 <= i < |segments| ==> i in schedule
    ensures |results| == |segments|
    ensures forall i :: 0 <= i < |segments| ==>
              && results[i].path == Downloader.SegmentPath(segmentsDir, segments[i])
              && results[i] == DownloadSegment(segments[i], segmentsDir, effect(i))
  {
    var work := (i: nat, s: Segment) => DownloadSegment(s, segmentsDir, effect(i));
    results := Workers.RunAll(segments, work, BatchResult(false, []), schedule);
    forall i | 0 <= i < |segments|
      ensures results[i] == DownloadSegment(segments[i], segmentsDir, effect(i))
    {
      assert results[i] == work(i, segments[i]);
    }
  }

  /** Where both versions fetch a readable 200 playlist and parse it to the
      same segments, they return the same segments; they part ways on a
      non-200 status, which only the package version rejects. */
  lemma PlaylistVersionsAgreeOn200(cacheFile: string, cached: Option<seq<Segment>>, body: string,
                                    parse: string -> seq<Segment>, forceURLPrefix: string, forceExt: string, urls: UrlCodec)
    requires ParseZeroLimitIsAll(body, forceURLPrefix, forceExt, 0, 0, urls) == Success(parse(body))
    ensures var response := Responded(StatusOK, Some(body));
      var before := DownloadM3U8(cacheFile, cached, response, parse).result;
      var after := Downloader.DownloadM3U8(cacheFile, cached, response, forceURLPrefix, forceExt, urls, true).result;
      before.Success? && after.Success? && before.value == after.value
  {
  }

  lemma StatusCheckDiffers(cacheFile: string, body: string, status: int,
                           parse: string -> seq<Segment>, forceURLPrefix: string, forceExt: string, urls: UrlCodec)
    requires status != StatusOK
    ensures var response := Responded(status, Some(body));
      && DownloadM3U8(cacheFile, None, response, parse).result == Success(parse(body))
      && Downloader.DownloadM3U8(cacheFile, None, response, forceURLPrefix, forceExt, urls, true).result
           == Failure(Downloader.PlaylistStatus(status))
  {
  }
}

=== FILE: parser.dfy ===
/** The playlist parser (`parseM3U8`): text in, the ordered segments of a
    skip/limit window out, each with a URL and a numbered file name. */
module Parser {
  import opened Wrappers
  import opened Text
  import opened Decimal
  import opened Paths

  /** One media segment: where to fetch it and what to call the file. */
  datatype Segment = Segment(url: string, filename: string)

  datatype ParseError =
    | EmptyData         // "m3u8 data is empty"
    | BadURLPrefix      // "failed to parse URL prefix"
    | NoSegmentsFound   // "no segments found"

  /** `net/url`, left uninterpreted: whether `url.Parse` accepts a prefix,
      and the string `url.Parse(prefix).JoinPath(line).String()`. */
  datatype UrlCodec = UrlCodec(parses: string -> bool, joinPath: (string, string) -> string)

  /** A trimmed line that names a segment: not blank, not a `#` tag or comment. */
  predicate IsContent(line: string) {
    line != [] && line[0] != '#'
  }

  /** `fmt.Sprintf("segment_%04d%s", ordinal, ext)`. */
  function SegmentFilename(ordinal: nat, ext: string): string {
    "segment_" + Pad4(ordinal) + ext
  }

  /** The forced extension when one is given, else the line's own. */
  function SegmentExt(line: string, forceExt: string): (e: string)
    ensures forceExt == [] ==> IsExtension(e) && e == Ext(line)
    ensures forceExt != [] ==> e == forceExt
  {
    if forceExt != [] then forceExt
    else
      var e := Ext(line);
      assert IsExtension(e);
      e
  }

  /** The segment emitted for the content line `line` at content ordinal `ordinal`. */
  function MakeSegment(line: string, ordinal: nat, forceURLPrefix: string, forceExt: string, urls: UrlCodec): Segment {
    Segment(urls.joinPath(forceURLPrefix, line), SegmentFilename(ordinal, SegmentExt(line, forceExt)))
  }

  /** The skip/limit window. `zeroIsAll` selects the reading in which a
      zero limit means "no limit"; the code as written has it false. */
  datatype Window = Window(skip: int, limit: nat, zeroIsAll: bool) {

    predicate Unbounded() {
      zeroIsAll && limit == 0
    }

    /** The loop's `break` test at content ordinal `n`. */
    predicate Past(n: int) {
      !Unbounded() && n >= skip + limit
    }
  }

  /** The parsing loop over the remaining `lines`, `n` being the content
      ordinal of the next content line. */
  function Scan(lines: seq<string>, n: nat, forceURLPrefix: string, forceExt: string, w: Window, urls: UrlCodec)
    : (r: Result<seq<Segment>, ParseError>)
    ensures r.Failure? ==> r.error == BadURLPrefix && !urls.parses(forceURLPrefix)
    decreases |lines|
  {
    if lines == [] then Success([])
    else
      var line := TrimSpace(lines[0]);
      if !IsContent(line) then Scan(lines[1..], n, forceURLPrefix, forceExt, w, urls)
      else if n < w.skip then Scan(lines[1..], n + 1, forceURLPrefix, forceExt, w, urls)
      else if w.Past(n) then Success([])
      else if !urls.parses(forceURLPrefix) then Failure(BadURLPrefix)
      else
        var seg := MakeSegment(line, n, forceURLPrefix, forceExt, urls);
        match Scan(lines[1..], n + 1, forceURLPrefix, forceExt, w, urls)
        case Success(rest) => Success([seg] + rest)
        case Failure(e) => Failure(e)
  }

  function ParseWith(data: string, forceURLPrefix: string, forceExt: string, w: Window, urls: UrlCodec)
    : Result<seq<Segment>, ParseError>
  {
    if data == [] then Failure(EmptyData)
    else
      match Scan(SplitLines(data), 0, forceURLPrefix, forceExt, w, urls)
      case Failure(e) => Failure(e)
      case Success(segments) => if |segments| == 0 then Failure(NoSegmentsFound) else Success(segments)
  }

  /** `parseM3U8(data, forceURLPrefix, forceExt, skip, limit)` as written.
      Non-empty text with a negative limit reaches `make([]Segment, 0, limit)`,
      which panics; empty text is rejected before that. */
  function Parse(data: string, forceURLPrefix: string, forceExt: string, skip: int, limit: int, urls: UrlCodec)
    : (r: Result<seq<Segment>, ParseError>)
    requires data == [] || limit >= 0
    ensures data == [] <==> r == Failure(EmptyData)
    ensures r.Success? ==> |r.value| >= 1
  {
    if data == [] then Failure(EmptyData)
    else ParseWith(data, forceURLPrefix, forceExt, Window(skip, limit, false), urls)
  }

  /** `parseM3U8` with the `limit > 0 &&` guard its `break` test lacks:
      a zero limit selects every content line from `skip` on. */
  function ParseZeroLimitIsAll(data: string, forceURLPrefix: string, forceExt: string, skip: int, limit: int, urls: UrlCodec)
    : (r: Result<seq<Segment>, ParseError>)
    requires data == [] || limit >= 0
    ensures data == [] <==> r == Failure(EmptyData)
    ensures r.Success? ==> |r.value| >= 1
  {
    if data == [] then Failure(EmptyData)
    else ParseWith(data, forceURLPrefix, forceExt, Window(skip, limit, true), urls)
  }

  // ---------------------------------------------------------------------
  // Reference: the window in closed form

  /** The trimmed content lines among `lines`, in order; the k-th of them
      is the line with content ordinal k. */
  function ContentOf(lines: seq<string>): (cs: seq<string>)
    ensures |cs| <= |lines|
    ensures forall k :: 0 <= k < |cs| ==> IsContent(cs[k])
    decreases |lines|
  {
    if lines == [] then []
    else
      var line := TrimSpace(lines[0]);
      if IsContent(line) then [line] + ContentOf(lines[1..]) else ContentOf(lines[1..])
  }

  /** The content lines of a playlist. */
  function ContentLines(data: string): seq<string> {
    ContentOf(SplitLines(data))
  }

  function Max(a: int, b: int): int { if a < b then b else a }
  function Min(a: int, b: int): int { if a < b then a else b }

  /** One past the last content ordinal the window takes, when `total`
      content lines exist. */
  function WindowEnd(w: Window, total: int): int {
    if w.Unbounded() then total else Min(total, w.skip + w.limit)
  }

  /** The segments for content ordinals `lo .. hi-1`, where `cs[0]` has ordinal `n`. */
  function Emitted(cs: seq<string>, n: nat, lo: nat, hi: int, forceURLPrefix: string, forceExt: string, urls: UrlCodec)
    : (s: seq<Segment>)
    requires n <= lo && hi <= n + |cs|
    ensures |s| == Max(0, hi - lo)
    ensures forall j :: 0 <= j < |s| ==> s[j] == MakeSegment(cs[lo - n + j], lo + j, forceURLPrefix, forceExt, urls)
  {
    if hi <= lo then []
    else seq(hi - lo, j requires 0 <= j < hi - lo => MakeSegment(cs[lo - n + j], lo + j, forceURLPrefix, forceExt, urls))
  }

  /** What the loop computes over the content lines `cs` whose first has
      ordinal `n`, stated without the loop: the ordinals in
      `[max(skip, n), end)` are emitted, unless the prefix is rejected. */
  function WindowResult(cs: seq<string>, n: nat, forceURLPrefix: string, forceExt: string, w: Window, urls: UrlCodec)
    : Result<seq<Segment>, ParseError>
  {
    var lo := Max(w.skip, n);
    var hi := WindowEnd(w, n + |cs|);
    if hi <= lo then Success([])
    else if !urls.parses(forceURLPrefix) then Failure(BadURLPrefix)
    else Success(Emitted(cs, n, lo, hi, forceURLPrefix, forceExt, urls))
  }

  /** Blank and comment lines leave the ordinal alone: the content lines
      of two stretches of text are those of each, one after the other. */
  lemma {:induction false} ContentOfConcat(a: seq<string>, b: seq<string>)
    ensures ContentOf(a + b) == ContentOf(a) + ContentOf(b)
    decreases |a|
  {
    var ab := a + b;
    if a != [] {
      assert ab[0] == a[0] && ab[1..] == a[1..] + b;
      ContentOfConcat(a[1..], b);
    } else {
      assert ab == b;
    }
  }

  /** The content ordinal of a content line is the number of content
      lines above it. */
  lemma ContentOrdinal(lines: seq<string>, i: nat)
    requires i < |lines| && IsContent(TrimSpace(lines[i]))
    ensures |ContentOf(lines[..i])| < |ContentOf(lines)|
    ensures ContentOf(lines)[|ContentOf(lines[..i])|] == TrimSpace(lines[i])
  {
    assert lines == lines[..i] + ([lines[i]] + lines[i + 1..]);
    ContentOfConcat(lines[..i], [lines[i]] + lines[i + 1..]);
    assert ([lines[i]] + lines[i + 1..])[1..] == lines[i + 1..];
  }

  /** The loop over raw lines emits exactly the closed-form window of
      their content lines. */
  lemma {:induction false} ScanIsWindow(lines: seq<string>, n: nat, forceURLPrefix: string, forceExt: string, w: Window, urls: UrlCodec)
    ensures Scan(lines, n, forceURLPrefix, forceExt, w, urls) == WindowResult(ContentOf(lines), n, forceURLPrefix, forceExt, w, urls)
    decreases |lines|
  {
    if lines != [] {
      var line := TrimSpace(lines[0]);
      var cs := ContentOf(lines);
      var rest := ContentOf(lines[1..]);
      if !IsContent(line) {
        ScanIsWindow(lines[1..], n, forceURLPrefix, forceExt, w, urls);
      } else {
        assert cs == [line] + rest;
        ScanIsWindow(lines[1..], n + 1, forceURLPrefix, forceExt, w, urls);
        var hi := WindowEnd(w, n + |cs|);
        assert hi == WindowEnd(w, n + 1 + |rest|);
        if n < w.skip {
          ShiftedWindow(cs, n, forceURLPrefix, forceExt, w, urls);
        } else if !w.Past(n) && urls.parses(forceURLPrefix) {
          ConsWindow(cs, n, forceURLPrefix, forceExt, w, urls);
        }
      }
    }
  }

  /** Before the window, a content line only advances the ordinal. */
  lemma ShiftedWindow(cs: seq<string>, n: nat, forceURLPrefix: string, forceExt: string, w: Window, urls: UrlCodec)
    requires cs != [] && n < w.skip
    ensures WindowResult(cs[1..], n + 1, forceURLPrefix, forceExt, w, urls) == WindowResult(cs, n, forceURLPrefix, forceExt, w, urls)
  {
    var lo := Max(w.skip, n);
    var hi := WindowEnd(w, n + |cs|);
    if hi > lo {
      var a := Emitted(cs[1..], n + 1, lo, hi, forceURLPrefix, forceExt, urls);
      var b := Emitted(cs, n, lo, hi, forceURLPrefix, forceExt, urls);
      forall j | 0 <= j < |a|
        ensures a[j] == b[j]
      {
        assert cs[1..][lo - (n + 1) + j] == cs[lo - n + j];
      }
      assert a == b;
    }
  }

  /** Inside the window, a content line is emitted in front of the rest. */
  lemma ConsWindow(cs: seq<string>, n: nat, forceURLPrefix: string, forceExt: string, w: Window, urls: UrlCodec)
    requires cs != [] && n >= w.skip && !w.Past(n) && urls.parses(forceURLPrefix)
    ensures WindowResult(cs[1..], n + 1, forceURLPrefix, forceExt, w, urls).Success?
    ensures WindowResult(cs, n, forceURLPrefix, forceExt, w, urls)
      == Success([MakeSegment(cs[0], n, forceURLPrefix, forceExt, urls)] + WindowResult(cs[1..], n + 1, forceURLPrefix, forceExt, w, urls).value)
  {
    var hi := WindowEnd(w, n + |cs|);
    assert hi == WindowEnd(w, n + 1 + |cs[1..]|);
    assert n < hi;
    assert Max(w.skip, n) == n && Max(w.skip, n + 1) == n + 1;
    EmittedCons(cs, n, hi, forceURLPrefix, forceExt, urls);
  }

  lemma EmittedCons(cs: seq<string>, n: nat, hi: int, forceURLPrefix: string, forceExt: string, urls: UrlCodec)
    requires cs != [] && n < hi <= n + |cs|
    ensures Emitted(cs, n, n, hi, forceURLPrefix, forceExt, urls)
      == [MakeSegment(cs[0], n, forceURLPrefix, forceExt, urls)] + Emitted(cs[1..], n + 1, n + 1, hi, forceURLPrefix, forceExt, urls)
  {
    var a := Emitted(cs[1..], n + 1, n + 1, hi, forceURLPrefix, forceExt, urls);
    var b := Emitted(cs, n, n, hi, forceURLPrefix, forceExt, urls);
    forall j | 0 <= j < |a|
      ensures a[j] == b[1..][j]
    {
      assert cs[1..][j] == cs[j + 1];
    }
    assert b == [b[0]] + b[1..];
  }

  /** A narrower window from ordinal 0 emits a prefix of a wider one. */
  lemma EmittedPrefix(cs: seq<string>, hi: int, hi': int, forceURLPrefix: string, forceExt: string, urls: UrlCodec)
    requires 0 <= hi' <= hi <= |cs|
    ensures Emitted(cs, 0, 0, hi', forceURLPrefix, forceExt, urls)
      == Emitted(cs, 0, 0, hi, forceURLPrefix, forceExt, urls)[..hi']
  {
    var a := Emitted(cs, 0, 0, hi', forceURLPrefix, forceExt, urls);
    var b := Emitted(cs, 0, 0, hi, forceURLPrefix, forceExt, urls);
    assert forall j :: 0 <= j < hi' ==> a[j] == b[j];
  }

  /** `ParseWith` against the closed form, for any window. */
  lemma ParseWithSelectsWindow(data: string, forceURLPrefix: string, forceExt: string, w: Window, urls: UrlCodec)
    ensures var r := ParseWith(data, forceURLPrefix, forceExt, w, urls);
      var cs := ContentLines(data);
      var lo := Max(w.skip, 0);
      var hi := WindowEnd(w, |cs|);
      && (data == [] ==> r == Failure(EmptyData))
      && (data != [] && hi <= lo ==> r == Failure(NoSegmentsFound))
      && (data != [] && hi > lo && !urls.parses(forceURLPrefix) ==> r == Failure(BadURLPrefix))
      && (data != [] && hi > lo && urls.parses(forceURLPrefix) ==>
            r == Success(Emitted(cs, 0, lo, hi, forceURLPrefix, forceExt, urls)))
  {
    if data != [] {
      ScanIsWindow(SplitLines(data), 0, forceURLPrefix, forceExt, w, urls);
    }
  }

  // ---------------------------------------------------------------------
  // Properties of the parser as written

  /** `parseM3U8` emits exactly the content lines whose zero-based content
      ordinal lies in `[skip, skip + limit)`, in playlist order, the k-th
      of them named after ordinal `max(skip, 0) + k`; it fails on empty
      text, on an empty window, and on a rejected prefix once a segment
      is due. */
  lemma ParseSelectsWindow(data: string, forceURLPrefix: string, forceExt: string, skip: int, limit: int, urls: UrlCodec)
    requires limit >= 0
    ensures var r := Parse(data, forceURLPrefix, forceExt, skip, limit, urls);
      var cs := ContentLines(data);
      var lo := Max(skip, 0);
      var hi := Min(|cs|, skip + limit);
      && (data == [] ==> r == Failure(EmptyData))
      && (data != [] && hi <= lo ==> r == Failure(NoSegmentsFound))
      && (data != [] && hi > lo && !urls.parses(forceURLPrefix) ==> r == Failure(BadURLPrefix))
      && (data != [] && hi > lo && urls.parses(forceURLPrefix) ==>
            && r.Success? && |r.value| == hi - lo
            && forall j :: 0 <= j < hi - lo ==>
                 r.value[j] == MakeSegment(cs[lo + j], lo + j, forceURLPrefix, forceExt, urls))
  {
    ParseWithSelectsWindow(data, forceURLPrefix, forceExt, Window(skip, limit, false), urls);
  }

  /** A successful parse holds between one and `limit` segments. */
  lemma ParseAtMostLimit(data: string, forceURLPrefix: string, forceExt: string, skip: int, limit: int, urls: UrlCodec)
    requires limit >= 0
    requires Parse(data, forceURLPrefix, forceExt, skip, limit, urls).Success?
    ensures 1 <= |Parse(data, forceURLPrefix, forceExt, skip, limit, urls).value| <= limit
  {
    ParseSelectsWindow(data, forceURLPrefix, forceExt, skip, limit, urls);
  }

  /** With `limit = 0` the loop breaks at the first in-window line, so no
      playlist parses: every non-empty text ends in "no segments found". */
  lemma ParseLimitZeroFails(data: string, forceURLPrefix: string, forceExt: string, skip: int, urls: UrlCodec)
    requires data != []
    ensures Parse(data, forceURLPrefix, forceExt, skip, 0, urls) == Failure(NoSegmentsFound)
  {
    ParseSelectsWindow(data, forceURLPrefix, forceExt, skip, 0, urls);
  }

  /** A playlist without content lines never parses. */
  lemma ParseNeedsContent(data: string, forceURLPrefix: string, forceExt: string, skip: int, limit: int, urls: UrlCodec)
    requires limit >= 0 && data != [] && ContentLines(data) == []
    ensures Parse(data, forceURLPrefix, forceExt, skip, limit, urls) == Failure(NoSegmentsFound)
  {
    ParseSelectsWindow(data, forceURLPrefix, forceExt, skip, limit, urls);
  }

  /** Numbered names never collide: equal names mean equal ordinals, both
      when every segment carries the same forced extension and when each
      carries the extension of its own line. */
  lemma {:induction false} SegmentFilenameInjective(a: nat, ea: string, b: nat, eb: string)
    requires ea == eb || (IsExtension(ea) && IsExtension(eb))
    requires SegmentFilename(a, ea) == SegmentFilename(b, eb)
    ensures a == b
  {
    var fa, fb := SegmentFilename(a, ea), SegmentFilename(b, eb);
    Pad4RoundTrip(a);
    Pad4RoundTrip(b);
    if ea == eb {
      assert |Pad4(a)| == |Pad4(b)|;
      assert Pad4(a) == fa[8..8 + |Pad4(a)|];
      assert Pad4(b) == fb[8..8 + |Pad4(b)|];
    } else {
      assert fa[8..] == Pad4(a) + ea;
      assert fb[8..] == Pad4(b) + eb;
      LeadingDigitsOfRun(Pad4(a), ea);
      LeadingDigitsOfRun(Pad4(b), eb);
    }
    Pad4Injective(a, b);
  }

  /** All file names of one parse are pairwise distinct. */
  lemma ParseFilenamesUnique(data: string, forceURLPrefix: string, forceExt: string, skip: int, limit: int, urls: UrlCodec)
    requires limit >= 0
    requires Parse(data, forceURLPrefix, forceExt, skip, limit, urls).Success?
    ensures var s := Parse(data, forceURLPrefix, forceExt, skip, limit, urls).value;
      forall i, j :: 0 <= i < j < |s| ==> s[i].filename != s[j].filename
  {
    var s := Parse(data, forceURLPrefix, forceExt, skip, limit, urls).value;
    var cs := ContentLines(data);
    var lo := Max(skip, 0);
    ParseSelectsWindow(data, forceURLPrefix, forceExt, skip, limit, urls);
    forall i, j | 0 <= i < j < |s|
      ensures s[i].filename != s[j].filename
    {
      var ei := SegmentExt(cs[lo + i], forceExt);
      var ej := SegmentExt(cs[lo + j], forceExt);
      if s[i].filename == s[j].filename {
        SegmentFilenameInjective(lo + i, ei, lo + j, ej);
      }
    }
  }

  // ---------------------------------------------------------------------
  // The parser with the zero-limit guard

  /** With the guard, `limit = 0` takes every content line from ordinal
      `skip` on, and a positive limit behaves as in the code as written. */
  lemma ParseZeroLimitIsAllSelects(data: string, forceURLPrefix: string, forceExt: string, skip: int, limit: int, urls: UrlCodec)
    requires limit >= 0
    ensures var r := ParseZeroLimitIsAll(data, forceURLPrefix, forceExt, skip, limit, urls);
      var cs := ContentLines(data);
      var lo := Max(skip, 0);
      var hi := if limit == 0 then |cs| else Min(|cs|, skip + limit);
      && (data == [] ==> r == Failure(EmptyData))
      && (data != [] && hi <= lo ==> r == Failure(NoSegmentsFound))
      && (data != [] && hi > lo && !urls.parses(forceURLPrefix) ==> r == Failure(BadURLPrefix))
      && (data != [] && hi > lo && urls.parses(forceURLPrefix) ==>
            && r.Success? && |r.value| == hi - lo
            && forall j :: 0 <= j < hi - lo ==>
                 r.value[j] == MakeSegment(cs[lo + j], lo + j, forceURLPrefix, forceExt, urls))
    ensures limit > 0 ==> ParseZeroLimitIsAll(data, forceURLPrefix, forceExt, skip, limit, urls)
                          == Parse(data, forceURLPrefix, forceExt, skip, limit, urls)
  {
    ParseWithSelectsWindow(data, forceURLPrefix, forceExt, Window(skip, limit, true), urls);
    ParseWithSelectsWindow(data, forceURLPrefix, forceExt, Window(skip, limit, false), urls);
  }
}

=== FILE: paths.dfy ===
/** The slash-separated path helpers of Go's `path/filepath` the program
    uses, for a Unix host where the only separator is '/'. */
module Paths {

  /** `filepath.Ext`: the suffix of `path` starting at the last '.' of its
      final element, or "" when that element has no '.'. */
  function Ext(path: string): (r: string)
    ensures |r| <= |path| && r == path[|path| - |r|..]
    ensures r == [] || r[0] == '.'
    ensures forall k :: 0 <= k < |r| ==> r[k] != '/'
    ensures forall k :: 1 <= k < |r| ==> r[k] != '.'
    decreases |path|
  {
    if path == [] then []
    else
      var c := path[|path| - 1];
      if c == '/' then []
      else if c == '.' then ['.']
      else
        var e := Ext(path[..|path| - 1]);
        if e == [] then [] else e + [c]
  }

  /** The extension is empty exactly when every '.' of the path lies
      before its last '/'. */
  lemma {:induction false} ExtEmpty(path: string)
    ensures Ext(path) == [] <==> (forall k :: 0 <= k < |path| && path[k] == '.' ==> '/' in path[k + 1..])
    decreases |path|
  {
    if path != [] {
      var init := path[..|path| - 1];
      var c := path[|path| - 1];
      if c != '/' && c != '.' {
        ExtEmpty(init);
        forall k | 0 <= k < |init|
          ensures path[k] == init[k] && path[k + 1..] == init[k + 1..] + [c]
        {
        }
      }
    }
  }

  /** What `filepath.Ext` can return: "" or a '.' followed by characters
      that are neither '.' nor '/'. */
  predicate IsExtension(e: string) {
    e == [] || (e[0] == '.' && forall k :: 1 <= k < |e| ==> e[k] != '.' && e[k] != '/')
  }

  /** `strings.TrimSuffix`. */
  function TrimSuffix(s: string, suffix: string): (r: string)
    ensures |suffix| <= |s| && s[|s| - |suffix|..] == suffix ==> r + suffix == s
    ensures !(|suffix| <= |s| && s[|s| - |suffix|..] == suffix) ==> r == s
  {
    if |suffix| <= |s| && s[|s| - |suffix|..] == suffix then s[..|s| - |suffix|] else s
  }

  /** A file name with its extension removed, as the fix mode compares
      names: `strings.TrimSuffix(name, filepath.Ext(name))`. */
  function Stem(name: string): (r: string)
    ensures r + Ext(name) == name
  {
    TrimSuffix(name, Ext(name))
  }

  /** Appending an extension to a name whose extension is already "" (or
      any name, when the extension is non-empty) makes that the name's
      extension. */
  lemma {:induction false} ExtOfAppended(p: string, e: string)
    requires IsExtension(e)
    requires e == [] ==> Ext(p) == []
    ensures Ext(p + e) == e
    decreases |e|
  {
    if e == [] {
      assert p + e == p;
    } else if |e| == 1 {
      assert (p + e)[|p + e| - 1] == '.';
    } else {
      var e' := e[..|e| - 1];
      var c := e[|e| - 1];
      assert IsExtension(e');
      ExtOfAppended(p, e');
      assert p + e == (p + e') + [c];
      ExtGrows(p + e', c);
      assert e' + [c] == e;
    }
  }

  /** An ordinary character after a path with an extension extends it. */
  lemma ExtGrows(path: string, c: char)
    requires c != '/' && c != '.' && Ext(path) != []
    ensures Ext(path + [c]) == Ext(path) + [c]
  {
    var q := path + [c];
    assert q[|q| - 1] == c && q[..|q| - 1] == path;
  }

  /** The stem of `p + e` is `p` when `e` is the extension it ends up with. */
  lemma StemOfAppended(p: string, e: string)
    requires IsExtension(e)
    requires '.' !in p
    ensures Stem(p + e) == p
  {
    ExtOfAppended(p, e);
  }

  /** `filepath.Join(dir, name)` on two elements, without the lexical
      clean-up Go applies afterwards. */
  function Join(dir: string, name: string): (r: string)
    ensures |name| <= |r| && r[|r| - |name|..] == name
    ensures name != [] && dir != [] ==> |name| < |r| && r[|r| - |name| - 1] == '/'
    ensures dir == [] ==> r == name
    ensures name == [] ==> r == dir
    ensures dir != [] && name != [] ==> r == dir + "/" + name
  {
    if dir == [] then name
    else if name == [] then dir
    else dir + "/" + name
  }

  /** `path` without its trailing slashes. */
  function TrimTrailingSlashes(path: string): (r: string)
    ensures |r| <= |path| && r == path[..|r|]
    ensures r == [] || r[|r| - 1] != '/'
    ensures forall k :: |r| <= k < |path| ==> path[k] == '/'
    decreases |path|
  {
    if path != [] && path[|path| - 1] == '/' then TrimTrailingSlashes(path[..|path| - 1]) else path
  }

  /** The characters after the last '/' of `path`. */
  function LastElement(path: string): (r: string)
    ensures |r| <= |path| && r == path[|path| - |r|..]
    ensures '/' !in r
    ensures |r| == |path| || path[|path| - |r| - 1] == '/'
    decreases |path|
  {
    if path == [] || path[|path| - 1] == '/' then []
    else LastElement(path[..|path| - 1]) + [path[|path| - 1]]
  }

  /** `filepath.Base`: the last element of `path`, trailing slashes
      ignored; "." for the empty path and "/" for a path of slashes. */
  function Base(path: string): (r: string)
    ensures r != []
    ensures path == [] ==> r == "."
    ensures r == "/" || '/' !in r
    ensures path != [] && (forall k :: 0 <= k < |path| ==> path[k] == '/') ==> r == "/"
    ensures var t := TrimTrailingSlashes(path);
      t != [] ==> |r| <= |t| && r == t[|t| - |r|..] && '/' !in r && (|r| == |t| || t[|t| - |r| - 1] == '/')
  {
    if path == [] then "."
    else
      var t := TrimTrailingSlashes(path);
      if t == [] then "/" else
        var b := LastElement(t);
        assert b != [];
        b
  }

  /** A path's last element is everything after the last slash. */
  lemma {:induction false} LastElementAfterSlash(dir: string, name: string)
    requires '/' !in name
    ensures LastElement(dir + "/" + name) == name
    decreases |name|
  {
    var p := dir + "/" + name;
    if name == [] {
      assert p[|p| - 1] == '/';
    } else {
      assert p[..|p| - 1] == dir + "/" + name[..|name| - 1];
      LastElementAfterSlash(dir, name[..|name| - 1]);
      assert name[..|name| - 1] + [name[|name| - 1]] == name;
    }
  }

  /** The base of a joined path is the joined name, when that name is a
      single non-empty element. */
  lemma BaseOfJoin(dir: string, name: string)
    requires name != [] && '/' !in name
    ensures Base(Join(dir, name)) == name
  {
    var p := Join(dir, name);
    assert TrimTrailingSlashes(p) == p;
    if dir == [] {
      assert name[|name| - |LastElement(name)|..] == name;
    } else {
      LastElementAfterSlash(dir, name);
    }
  }
}

=== FILE: text.dfy ===
/** The few pieces of Go's `strings` package the program relies on, over
    strings of Unicode scalar values. */
module Text {

  /** Go's `unicode.IsSpace`: the Latin-1 spaces plus the Unicode
      White_Space characters outside Latin-1. */
  predicate IsSpace(c: char) {
    || c == ' ' || c == '\t' || c == '\n' || c == '\r'
    || c == '\U{0B}' || c == '\U{0C}' || c == '\U{85}' || c == '\U{A0}'
    || c == '\U{1680}' || ('\U{2000}' <= c <= '\U{200A}')
    || c == '\U{2028}' || c == '\U{2029}' || c == '\U{202F}'
    || c == '\U{205F}' || c == '\U{3000}'
  }

  /** The first position at or after `i` that does not hold white space
      (`|s|` when there is none). */
  function SpaceRunEnd(s: string, i: nat): (j: nat)
    requires i <= |s|
    ensures i <= j <= |s|
    ensures forall k :: i <= k < j ==> IsSpace(s[k])
    ensures j == |s| || !IsSpace(s[j])
    decreases |s| - i
  {
    if i == |s| || !IsSpace(s[i]) then i else SpaceRunEnd(s, i + 1)
  }

  /** The start of the white-space run that ends at position `j`. */
  function SpaceRunStart(s: string, j: nat): (i: nat)
    requires j <= |s|
    ensures i <= j
    ensures forall k :: i <= k < j ==> IsSpace(s[k])
    ensures i == 0 || !IsSpace(s[i - 1])
    decreases j
  {
    if j == 0 || !IsSpace(s[j - 1]) then j else SpaceRunStart(s, j - 1)
  }

  /** `strings.TrimSpace`: removes leading and trailing white space. */
  function TrimSpace(s: string): (r: string)
    ensures |r| <= |s|
    ensures r == [] || (!IsSpace(r[0]) && !IsSpace(r[|r| - 1]))
  {
    var i := SpaceRunEnd(s, 0);
    if i == |s| then []
    else
      var j := SpaceRunStart(s, |s|);
      s[i..j]
  }

  /** The trimmed line is the slice of `s` left between an all-space
      prefix and an all-space suffix. */
  lemma TrimSpaceSlice(s: string)
    ensures var i := SpaceRunEnd(s, 0);
      var r := TrimSpace(s);
      && i + |r| <= |s|
      && r == s[i..i + |r|]
      && (forall k :: 0 <= k < i ==> IsSpace(s[k]))
      && (forall k :: i + |r| <= k < |s| ==> IsSpace(s[k]))
  {
  }

  /** Trimming twice is trimming once. */
  lemma TrimSpaceIdempotent(s: string)
    ensures TrimSpace(TrimSpace(s)) == TrimSpace(s)
  {
    var t := TrimSpace(s);
    if t != [] {
      assert SpaceRunEnd(t, 0) == 0;
      assert SpaceRunStart(t, |t|) == |t|;
      assert t[0..|t|] == t;
    }
  }

  /** `strings.Split(s, "\n")`: the pieces between newlines, in order.
      Like Go's, the empty string splits into one empty piece. */
  function SplitLines(s: string): (r: seq<string>)
    ensures |r| >= 1
    ensures forall k :: 0 <= k < |r| ==> '\n' !in r[k]
    decreases |s|
  {
    if s == [] then [[]]
    else
      var rest := SplitLines(s[1..]);
      if s[0] == '\n' then [[]] + rest
      else [[s[0]] + rest[0]] + rest[1..]
  }

  /** `strings.Join(pieces, "\n")`. */
  function JoinLines(pieces: seq<string>): string
    requires |pieces| >= 1
    decreases |pieces|
  {
    if |pieces| == 1 then pieces[0] else pieces[0] + "\n" + JoinLines(pieces[1..])
  }

  /** Splitting and re-joining with the separator gives back the text. */
  lemma {:induction false} JoinSplitLines(s: string)
    ensures JoinLines(SplitLines(s)) == s
    decreases |s|
  {
    if s != [] {
      var rest := SplitLines(s[1..]);
      JoinSplitLines(s[1..]);
      if s[0] == '\n' {
        assert ([[]] + rest)[1..] == rest;
      } else {
        assert rest == [rest[0]] + rest[1..];
        JoinLinesExtendFirst(s[0], rest[0], rest[1..]);
      }
      assert s == [s[0]] + s[1..];
    }
  }

  /** Putting a character in front of the first piece puts it in front of
      the joined text. */
  lemma JoinLinesExtendFirst(c: char, first: string, rest: seq<string>)
    ensures JoinLines([[c] + first] + rest) == [c] + JoinLines([first] + rest)
  {
    var a := [[c] + first] + rest;
    var b := [first] + rest;
    if rest == [] {
      assert a == [[c] + first] && b == [first];
    } else {
      assert a[1..] == rest && b[1..] == rest;
      var t := JoinLines(rest);
      assert ([c] + first) + "\n" + t == [c] + (first + "\n" + t);
    }
  }

  /** Splitting text that starts with a newline-free piece puts that piece
      in front of the first line of the rest. */
  lemma {:induction false} SplitLinesPrefix(p: string, t: string)
    requires '\n' !in p
    ensures SplitLines(p + t) == [p + SplitLines(t)[0]] + SplitLines(t)[1..]
    decreases |p|
  {
    if p != [] {
      assert (p + t)[1..] == p[1..] + t;
      SplitLinesPrefix(p[1..], t);
      assert [p[0]] + (p[1..] + SplitLines(t)[0]) == p + SplitLines(t)[0];
    } else {
      assert p + t == t;
      assert p + SplitLines(t)[0] == SplitLines(t)[0];
      assert SplitLines(t) == [SplitLines(t)[0]] + SplitLines(t)[1..];
    }
  }

  /** Joining newline-free pieces and splitting again gives back the pieces. */
  lemma {:induction false} SplitJoinLines(pieces: seq<string>)
    requires |pieces| >= 1
    requires forall k :: 0 <= k < |pieces| ==> '\n' !in pieces[k]
    ensures SplitLines(JoinLines(pieces)) == pieces
    decreases |pieces|
  {
    var p := pieces[0];
    if |pieces| == 1 {
      SplitLinesPrefix(p, []);
      assert p + [] == p;
    } else {
      var j := JoinLines(pieces[1..]);
      SplitJoinLines(pieces[1..]);
      assert JoinLines(pieces) == p + ("\n" + j);
      SplitLinesPrefix(p, "\n" + j);
      assert ("\n" + j)[1..] == j;
      assert SplitLines("\n" + j) == [[]] + SplitLines(j);
      assert p + [] == p;
      assert pieces == [p] + pieces[1..];
    }
  }

  /** Go's `a < b` on strings: lexicographic order. */
  predicate LexLess(a: string, b: string)
    decreases |a|
  {
    if a == [] then b != []
    else if b == [] then false
    else if a[0] < b[0] then true
    else if a[0] == b[0] then LexLess(a[1..], b[1..])
    else false
  }

  /** `<` on strings is a strict total order: irreflexive, ... */
  lemma {:induction false} LexLessIrreflexive(a: string)
    ensures !LexLess(a, a)
    decreases |a|
  {
    if a != [] {
      LexLessIrreflexive(a[1..]);
    }
  }

  /** ... transitive ... */
  lemma {:induction false} LexLessTransitive(a: string, b: string, c: string)
    requires LexLess(a, b) && LexLess(b, c)
    ensures LexLess(a, c)
    decreases |a|
  {
    if a != [] && a[0] == b[0] && b[0] == c[0] {
      LexLessTransitive(a[1..], b[1..], c[1..]);
    }
  }

  /** ... and total: of two different strings one is less than the other. */
  lemma {:induction false} LexLessTotal(a: string, b: string)
    ensures a == b || LexLess(a, b) || LexLess(b, a)
    decreases |a|
  {
    if a != [] && b != [] && a[0] == b[0] {
      LexLessTotal(a[1..], b[1..]);
      if a[1..] == b[1..] {
        assert a == [a[0]] + a[1..] && b == [b[0]] + b[1..];
      }
    }
  }

  /** Hence "not less than" is transitive too. */
  lemma NotLexLessTransitive(a: string, b: string, c: string)
    requires !LexLess(b, a) && !LexLess(c, b)
    ensures !LexLess(c, a)
  {
    LexLessTotal(a, b);
    if LexLess(c, a) && LexLess(a, b) {
      LexLessTransitive(c, a, b);
    }
  }

  /** And two strings are never less than each other. */
  lemma LexLessAsymmetric(a: string, b: string)
    requires LexLess(a, b)
    ensures !LexLess(b, a)
  {
    if LexLess(b, a) {
      LexLessTransitive(a, b, a);
      LexLessIrreflexive(a);
    }
  }
}

=== FILE: workers.dfy ===
/** The goroutine-per-item pattern both downloaders use: a result slice
    allocated with one zero-valued slot per item, and a worker per item
    that writes only its own slot. */
module Workers {

  /** Runs the workers in the order they happen to finish, `schedule`
      listing worker indices in completion order (every worker finishes;
      `wg.Wait()` returns only then). Whatever that order, slot `i` ends
      up holding worker `i`'s result. */
  method RunAll<A, T>(items: seq<A>, work: (nat, A) -> T, zero: T, schedule: seq<nat>) returns (results: seq<T>)
    requires forall k :: 0 <= k < |schedule| ==> schedule[k] < |items|
    requires forall i :: 0 <= i < |items| ==> i in schedule
    ensures |results| == |items|
    ensures forall i :: 0 <= i < |items| ==> results[i] == work(i, items[i])
  {
    results := seq(|items|, _ => zero);
    var k := 0;
    while k < |schedule|
      invariant 0 <= k <= |schedule|
      invariant |results| == |items|
      invariant forall i :: 0 <= i < |items| && i in schedule[..k] ==> results[i] == work(i, items[i])
    {
      var i := schedule[k];
      results := results[i := work(i, items[i])];
      assert forall j :: j in schedule[..k + 1] ==> j in schedule[..k] || j == i;
      k := k + 1;
    }
    assert schedule[..k] == schedule;
  }
}

=== FILE: wrappers.dfy ===
/** Option and Result, the failure-carrying values used throughout the model
    in place of Go's `nil` and `(value, error)` pairs. */
module Wrappers {

  datatype Option<+T> = None | Some(value: T) {

    /** The value, or `default` when there is none. */
    function GetOr(default: T): T {
      match this
      case Some(v) => v
      case None => default
    }
  }

  /** `Success(v)` stands for Go's `(v, nil)`; `Failure(e)` for `(nil, e)`. */
  datatype Result<+T, +E> = Success(value: T) | Failure(error: E)
}
